=== FILE: README.md ===
# nLightbox in Dafny

nLightbox is a small browser lightbox. Elements marked with a group
attribute are scanned into a registry of media items. A click on one of
them is meant to ask the gallery for the item's content, open the box, and
show the content once the item's asynchronous `load()` has settled. As
written, the registry call at `src/Lightbox.js:77` passes its arguments
shifted, so a click finds no item and no load ever starts (the fifth
finding below). Everything about loading in this model, the first four
findings included, therefore concerns the registry with that call
corrected (`Gallery.Register`). This project
models the three pieces of sequential logic in that library and proves
properties about them:

- **The gallery coordinator** (`Gallery`, `src/Lightbox.js`). It holds the
  open/closed flag and its callbacks, and decides which DOM events close
  the box. It builds the registry from the scanned elements. It runs the
  `_get` protocol: a cached item is shown at once; an unloaded item
  records itself as the latest request, raises the loading flag and starts
  its load; a settling load writes to the content box only while it is
  still the latest request. The asynchronous race is made explicit. A click
  is a `Request(key)` step and a settling promise is a `Complete(key,
  result)` step. A key press or a click inside the box is a `Dom` step. A
  call of the public `open`, `close` or `toggle` is an `Api` step. `pending`
  counts the loads in flight. After the scan, every interleaving of these
  events is a sequence of pure steps (`Run`). Every such run keeps the
  gallery well formed (`Gallery.RunWf`).
- **The corrected coordinator** (`GalleryFixed`). It is the same protocol
  with the defects listed under Findings removed. Its invariant
  (`Coherent`) is proved to hold along every run. On top of it are proved:
  the box always follows the last click, the loading flag is up exactly
  while the latest request is in flight, and each item's `load()` is called
  at most once.
- **The items** (`Items`, `Options`). These are the base item state, the
  type tags, and the image and video constructors with their dimension
  guards.
- **The YouTube items** (`Youtube`, `YoutubeId`, `Text`).
  - The video-id expression is modelled twice: as a declarative predicate
    (`YoutubeId.MatchesAt`) and as a backtracking matcher proved sound and
    complete against it.
  - The option flags are normalised to 0/1.
  - The embed URL is built by plain concatenation and proved to read back
    into the id and the five parameters, in their fixed order.
  - The embedded-player variant's `beforeClose`/`beforeChange` guards are
    modelled too.
- **The deep-link scanner** (`HashParams`, `src/Utils.js`). It is the
  global-regex scan of the URL fragment, as a pure function of the hash
  string. Its key, value, overwrite and skip rules are proved.

The files are `wrappers.dfy`, `options.dfy`, `text.dfy`, `hash_params.dfy`,
`youtube_id.dfy`, `youtube.dfy`, `items.dfy`, `gallery.dfy`,
`gallery_fixed.dfy` and `findings.dfy`. One module per file.

Three idealisations are made:

- The key generator is an oracle. `Register` and `Scan` take the sequence
  of keys it hands out, and `Gallery.Fresh` says they are distinct.
- The result of each media `load()` is supplied by the `Complete` event:
  either the node it resolves with, or a rejection.
- A settlement is one atomic `Complete` step that covers the load's
  `then`, `catch` and `finally` handlers together. This is sound because
  the handlers of one promise chain run as microtasks, one after another,
  before any other task such as a click can run.

## Model

| member | source | states |
|---|---|---|
| HashParams.Fragment | src/Utils.js:5 | Exactly the first character of the hash is dropped, whatever it is, and the scan runs on the rest; an empty hash gives an empty fragment. |
| HashParams.ValueRun | src/Utils.js:6 | The value read after `=` is the maximal run of `[a-zA-Z0-9_-]` there: it lies in the text, uses only those characters, and stops at the end or at a character outside the class. |
| HashParams.MatchAt | src/Utils.js:6 | A match at a position is an optional `&`, one lowercase letter, `=`, then the value run; the match's extent and the name's position are stated. |
| HashParams.MatchAtNone | src/Utils.js:6 | The expression fails at a position exactly when no `letter=` pair starts there and the position is not an `&` followed by such a pair. |
| HashParams.Matches | src/Utils.js:11-19 | Every match of the scan from a position starts at or after it. |
| HashParams.MatchesAreMatches | src/Utils.js:11-19 | Every element of the scan is exactly what the expression yields at its own start. |
| HashParams.MatchesOrdered | src/Utils.js:11-19 | Matches are taken left to right and never overlap. |
| HashParams.MatchesSkipOnlyNonMatching | src/Utils.js:11-19 | Every position no match covers is one where the expression fails: text is skipped only when it does not match. |
| HashParams.Collect | src/Utils.js:13-18 | Builds the result object from the matches in order; what it promises is stated by `CollectFromMatches` and `CollectLastWins`. |
| HashParams.CollectFromMatches | src/Utils.js:13-18 | Every key of the result comes from a match with exactly that value, and the value is non-empty. |
| HashParams.CollectLastWins | src/Utils.js:17 | When several matches set a key, the last one's value is kept. |
| HashParams.Parameters | src/Utils.js:4-22 | `getHashmarkParameters` on a given hash; its contract is carried by `ParametersSound`, `ParametersKeys`, `ParametersLastWins` and `ParametersEmpty`. |
| HashParams.ParametersSound | src/Utils.js:4-22 | Every parameter is one lowercase letter that stood immediately before `=` in the fragment, and its value is the non-empty maximal value run after that `=`. |
| HashParams.ParametersLastWins | src/Utils.js:17 | The value of each key is the value of the last match that sets it. |
| HashParams.ParametersKeys | src/Utils.js:16 | A key is present exactly when some match sets it with a non-empty value: a pair with an empty value is omitted. |
| HashParams.ParametersEmpty | src/Utils.js:8-21 | A fragment with no lowercase letter directly followed by `=` yields the empty object. |
| HashParams.NoPairNoMatch | src/Utils.js:11-19 | Without a `letter=` from a position on, the scan from there finds nothing. |
| Options.WithDefault | src/LightboxItem.js:108 | A destructuring default replaces only an `undefined` option; any other value, `null` and `false` included, is kept. |
| Options.StrictFlag | src/LightboxItem.js:127 | `option === true` after the default: true exactly for `true`, or for an absent option whose default is true. |
| Options.Bit | src/LightboxItem.js:121-124 | `option === true ? 1 : 0`: the result is 0 or 1, and 1 exactly when the strict flag holds. |
| Options.Dimension | src/LightboxItem.js:138-139 | A width or height is applied exactly when it is strictly positive, and then unchanged. |
| Text.IntRoundTrip | src/LightboxItem.js:142 | An integer rendered into the URL template reads back as the same integer, and the rendering uses only digits and a minus sign. |
| Text.SplitJoin | src/LightboxItem.js:142 | Splitting a `&`-join of separator-free parameters gives back the parameters. |
| YoutubeId.TryAt | src/LightboxItem.js:112 | When the backtracking matcher succeeds at a start position, the declarative expression matches there with that capture position. |
| YoutubeId.TryAtComplete | src/LightboxItem.js:112 | When the expression matches at a start position, the matcher succeeds there. |
| YoutubeId.SearchComplete | src/LightboxItem.js:113 | The left-to-right search finds a match no later than any match of the expression. |
| YoutubeId.FirstCaptureIsLeftmost | src/LightboxItem.js:113 | The first match found is a match of the expression and starts at or before every match of the expression. |
| YoutubeId.ExtractId | src/LightboxItem.js:112-116 | A detected id has exactly 11 characters of `[a-zA-Z0-9_-]` and is the capture of a match of the expression that starts at or before every match of the expression in the source. |
| YoutubeId.ExtractIdNoneIffNoMatch | src/LightboxItem.js:112-119 | No id is detected exactly when the expression matches nowhere in the source. |
| Youtube.VideoId | src/LightboxItem.js:112-119 | The id detection of the constructor; `VideoIdSpec` states what it yields. |
| Youtube.VideoIdSpec | src/LightboxItem.js:112-119 | The video id is an 11-character id-charset capture of a match at the leftmost start when the expression matches, and the unchanged source when it matches nowhere; the same detection is repeated in src/LightboxYoutube.js (lines 13-20) and src/LightboxItem/LightboxYoutube.js (lines 25-32). |
| Youtube.NewYoutube | src/LightboxItem.js:108-130 | The constructor throws exactly when `src` is not a string (an absent one included, as in a call without options); otherwise `rel`, `autoplay`, `controls` and `showinfo` are each 0 or 1, and 1 exactly when the option is `true` or absent with a `true` default; `allowFullscreen` likewise; the id is the detected one; `start` defaults to 0 and the sizes to 854 by 480. The same constructor is repeated in src/LightboxYoutube.js (lines 9-31) and src/LightboxItem/LightboxYoutube.js (lines 21-45). |
| Youtube.EmbedUrl | src/LightboxItem.js:142 | The iframe source template; `EmbedUrlShape` and `EmbedUrlRoundTrip` state its layout and that it reads back. |
| Youtube.EmbedUrlShape | src/LightboxItem.js:142 | The embed URL is the fixed prefix, the id, `?`, and the five `name=value` parameters autoplay, rel, controls, showinfo, start joined by `&`. |
| Youtube.EmbedUrlRoundTrip | src/LightboxItem.js:142 | Reading the embed URL back gives the configuration's id and its five parameter values in the written order, whenever the id holds no `?`; src/LightboxYoutube.js (line 43) builds the same URL. |
| Youtube.DetectedIdReadsBack | src/LightboxItem.js:108-142 | For every string source in which an id is detected, the URL built from the constructed item reads back into that item's id and parameters. |
| Youtube.LoadIframe | src/LightboxItem.js:136-147 | The iframe gets a width or height exactly when it is strictly positive, the embed URL as its source, and the fullscreen flag; src/LightboxYoutube.js (lines 37-48) builds the same iframe. |
| Youtube.StartPlayer | src/LightboxItem/LightboxYoutube.js:51-68 | `load` creates the player and keeps the item's fields. |
| Youtube.NewPlayerItem | src/LightboxItem/LightboxYoutube.js:21-45 | The embedded-player constructor: the shared constructor plus no player yet; `PlayerGuards` states it. |
| Youtube.BeforeClose | src/LightboxItem/LightboxYoutube.js:80-84 | `beforeClose` pauses the player when there is one; `PlayerGuards` states it before and after `load`. |
| Youtube.BeforeChange | src/LightboxItem/LightboxYoutube.js:86-90 | `beforeChange` pauses the player when there is one; `PlayerGuards` states it before and after `load`. |
| Youtube.PlayerGuards | src/LightboxItem/LightboxYoutube.js:44-90 | Construction succeeds exactly for a string source; after it there is no player and both guards do nothing; once `load` has created the player, each guard pauses it exactly once, and the player received exactly the constructor's id, sizes, flags and start. |
| Items.NewItem | src/LightboxItem/LightboxItem.js:6-14 | A new item carries its key, is not loaded, not loading, not failed, and has no data. |
| Items.TypeName | src/LightboxItem.js:15-150 | The `TYPE_NAME` of each class; `TypeNamesDistinct` states the four tags and that they tell the classes apart. |
| Items.TypeNamesDistinct | src/LightboxItem.js:15-150 | The four classes carry the tags `default`, `image`, `video`, `youtube`, and two items share a tag exactly when they are of the same class. |
| Items.NewImage | src/LightboxItem.js:23-29 | Absent sizes become -1 and an absent `alt` becomes empty; given values are kept. |
| Items.ImageOf | src/LightboxItem.js:35-43 | The image element gets a width or height exactly when the configured one is strictly positive. |
| Items.ImageDefaultSizeNotApplied | src/LightboxItem.js:23-43 | An image constructed without a size keeps its natural size: the default of -1 never reaches the element; a given size is applied exactly when positive. |
| Items.NewVideo | src/LightboxItem.js:65-73 | Sizes default to 854 by 480; `autoplay` and `controls` hold only when the option is exactly `true` after the defaults `false` and `true`. |
| Items.VideoOf | src/LightboxItem.js:79-97 | The video element carries the flags and source, and a width or height exactly when strictly positive. |
| Items.VideoDefaultSize | src/LightboxItem.js:65-87 | A video constructed without sizes is shown at 854 by 480. |
| Gallery.GroupId | src/Lightbox.js:7 | The group number is never 0: an absent or zero uid falls back to 1, any other is kept. |
| Gallery.NewConfig | src/Lightbox.js:6-11 | Callbacks are kept exactly when callable, and the two closing behaviours hold exactly when the option is `true`. |
| Gallery.NewGallery | src/Lightbox.js:13-17 | A new gallery is closed, not loading, has no latest request, an empty box, no items and no load in flight. |
| Gallery.Open | src/Lightbox.js:136-146 | `open` on a closed box opens it, changes nothing else and calls `onOpen` exactly once when there is one; on an open box it changes nothing and calls nothing. |
| Gallery.Close | src/Lightbox.js:148-158 | `close` on an open box closes it, changes nothing else and calls `onClose` exactly once when there is one; on a closed box it changes nothing and calls nothing. |
| Gallery.OpenCloseRoundTrip | src/Lightbox.js:136-158 | A second `open` or `close` is a no-op, and `close` undoes an `open` of a closed box and conversely. |
| Gallery.Toggle | src/Lightbox.js:160-162 | `toggle` dispatches on `isOpen`; `ToggleNegates` and `HandleApi` state its effect. |
| Gallery.ToggleNegates | src/Lightbox.js:160-162 | `toggle` negates `isOpen`, changes nothing else, calls the matching callback at most once, and two toggles give back the state. |
| Gallery.ClosesOn | src/Lightbox.js:33-52 | The listeners' closing condition, a helper of `HandleDom`, whose contract states it in terms of the event and the box. |
| Gallery.HandleDom | src/Lightbox.js:33-52 | An open box is closed exactly by Escape (27) when closing on Escape is enabled, by a click on the inner box when closing on blur is enabled, or by a click on an element with the `lightbox__close` class; then `onClose` is called once if it exists. Any other event, and any event on a closed box, changes nothing and calls nothing; nothing but the open flag ever changes. |
| Gallery.HandleApi | src/Lightbox.js:136-162 | A page call of `open`, `close` or `toggle` leaves the box open, closed or flipped, changes nothing else and throws nothing, and calls `onOpen` or `onClose` exactly when the box changes state in that direction and the callback exists. |
| Gallery.Find | src/Lightbox.js:107 | The position of the first item with the key, or none exactly when no item has it. |
| Gallery.Register | src/Lightbox.js:58-82 | The registry succeeds exactly when every element's type is `image`, and otherwise fails with `Invalid lightbox type`; item i is a fresh, unloaded image keyed by the i-th generated key with the element's source, tagged `image`. |
| Gallery.RegisteredFindable | src/Lightbox.js:58-82 | With distinct generated keys, every element's key finds its own item. |
| Gallery.Scan | src/Lightbox.js:54-83 | A successful scan replaces the items and nothing else; a throwing one changes nothing. |
| Gallery.Get | src/Lightbox.js:106-134 | An unknown key changes nothing; a loaded item's cached node is shown without a load, a change of the latest request or of the loading flag (a cached non-node throws); an unloaded item empties the box, becomes the latest request, raises the loading flag and starts exactly one load. |
| Gallery.Stored | src/Lightbox.js:119-122 | A settled load stores the node it resolved with, or the error paragraph's HTML string when it failed. |
| Gallery.Settle | src/Lightbox.js:119-131 | A settlement stores the data and ends the load; it shows the result only when still the latest request; it marks the item loaded and clears the loading flag unless a failed latest request throws on appending its string first. |
| Gallery.Click | src/Lightbox.js:69-73 | A click is `_get` then `open`: without a throw it opens the box and makes exactly the calls of `_get` (its one `load()` for an unloaded item) followed by those of `open`; a throw in `_get` leaves the box as it was. |
| Gallery.NewGalleryWf | src/Lightbox.js:13-17 | A new gallery, and the gallery after a scan, are well formed. |
| Gallery.Step | src/Lightbox.js:33-162 | One event of the coordinator as written: a click, a settlement, a box or key event, or a call of the public interface; `StepWf` states what it preserves. |
| Gallery.Run | src/Lightbox.js:33-162 | A sequence of events applied in order; `RunWf` states what it preserves. |
| Gallery.RunWf | src/Lightbox.js:58-134 | Every run of clicks, settlements, box events and calls of the public interface keeps the gallery well formed and the registry's keys. |
| Gallery.StepWf | src/Lightbox.js:106-134 | Every step keeps loads in flight registered, loaded items with data, the per-item flags down, and the registry's keys. |
| GalleryFixed.GetFixed | src/Lightbox.js:106-134 | The corrected `_get` never throws, makes any registered key the latest request, and starts a load exactly when the item is neither loaded nor already loading. |
| GalleryFixed.SettleFixed | src/Lightbox.js:119-131 | The corrected settlement never throws, always marks the item loaded with its node or the error node, and touches the box and the loading flag only for the latest request. |
| GalleryFixed.ClickFixed | src/Lightbox.js:69-73 | A corrected click always opens the box and starts only the clicked item's load. |
| GalleryFixed.StepFixed | src/Lightbox.js:33-162 | One event of the corrected coordinator; `StepFixedCoherent` and `StepFixedStarts` state it. |
| GalleryFixed.RunFixed | src/Lightbox.js:33-162 | A sequence of corrected events; `RunFixedCoherent`, `DisplayFollowsLastRequest`, `LoadingTracksLatest` and `LoadsAtMostOnce` state it. |
| GalleryFixed.InitialCoherent | src/Lightbox.js:6-17 | A freshly scanned gallery satisfies the invariant of the corrected protocol. |
| GalleryFixed.StepFixedCoherent | src/Lightbox.js:106-134 | Every corrected step keeps the invariant and the registry's keys. |
| GalleryFixed.RunFixedCoherent | src/Lightbox.js:106-134 | Every run of corrected steps keeps the invariant and the keys, and throws nothing. |
| GalleryFixed.DisplayFollowsLastRequest | src/Lightbox.js:112-127 | After any run, the box follows the last click on a registered item: its node with the loading flag down once loaded, an empty box with the flag up and its load in flight before. |
| GalleryFixed.LoadingTracksLatest | src/Lightbox.js:116-130 | The loading flag is up exactly while the latest request's load is in flight. |
| GalleryFixed.LoadsAtMostOnce | src/Lightbox.js:112-128 | Over any run, each item's `load()` is called at most once in all. |
| Findings.CachedRequestIsOverwritten | src/Lightbox.js:112-127 | Request b, then a; b settles; b is clicked again and shown from its cache; then a's older load settles and replaces b. |
| Findings.RepeatedRequestLoadsTwice | src/Lightbox.js:112-128 | Two clicks on an item before its load settles call its `load()` twice. |
| Findings.FailedCurrentLoadThrows | src/Lightbox.js:121-130 | A failed load that is still the latest request throws on appending the error string: the box stays empty, the item stays unloaded, the loading flag stays up. |
| Findings.SupersededLoadClearsLoading | src/Lightbox.js:123-131 | Request a, then b; a's superseded load settles and clears the loading flag while b's load is in flight. |
| Findings.RegisterShifted | src/Lightbox.js:75-77 | The registry as written: each image is keyed by the element's source and gets no `src`. |
| Findings.ShiftedRegistryNeverLoads | src/Lightbox.js:58-77 | With that registry, a click whose generated key is not one of the sources finds no item: the box opens, nothing loads, and no image has a source. |

## Left out

- DOM construction, class toggling, the loader and content elements, and the listeners' `preventDefault`/`stopPropagation` calls (src/Lightbox.js:34-35 and 70) are left out, since the model has no DOM. This covers src/Lightbox.js:28-31, 86-103 and 180-189; the `_loading` setter is the `loading` field.
- `uniqid` is left out: the generated keys are a parameter of `Register` and `Scan`.
- The group query by `data-lightbox-group` is left out. `Gallery.GroupId` models only the group number it uses.
- Media `load()` bodies are left out because they are browser or SDK callbacks. These are the image `onload`, the video `oncanplay`, the player's `onReady` and the maps SDK. A load's outcome is the `result` of the `Complete` event.
- The maps item and `randomInt` are left out: `randomInt` uses floating-point `Math.random`, and the maps item wraps a third-party SDK.
- `parseInt` coercion and `NaN` are left out: numeric options are integers already, and `None` stands for an absent option.
- The UI elements and `next`/`prev` are left out. The UI elements are presentational; `next`/`prev` are empty stubs whose promises never settle.
- The promises of `open`/`close` are left out: only the state change and the callbacks are modelled.
- A scan that throws on an unknown type has already attached click listeners to the earlier elements and to the failing one; those listeners are left out.
- Bootstrap, lint configuration and the error class are left out, since they hold no logic.
- The plain image and video variants outside `src/LightboxItem.js` are left out. They repeat its constructors and dimension guards.
- Text.IntToString: integers of magnitude 10^21 or more, which JavaScript renders in exponent form, are not modelled.
- YoutubeId.ExtractId: the leftmost start of the match is stated; among several captures at that same start, which one the expression's backtracking picks is computed but not characterised by a separate predicate.
- Youtube.VideoIdSpec: states a capture at the leftmost start of a match. When several captures share that start, it does not say which one the expression's backtracking picks.
- Youtube.EmbedUrlRoundTrip: requires that the id holds no `?`. A raw source kept as the id may hold one, and then the URL does not read back.
- Youtube.LoadIframe: the iframe-returning `load` of the YouTube classes in `src/LightboxItem.js` and `src/LightboxYoutube.js` returns an element rather than a promise. The registry only builds images, so the gallery never calls it; the model gives it no `Complete` step.
- Gallery.Register: models the registry as evidently intended, keyed by the generated key. The call as written is `Findings.RegisterShifted`.

## Findings

The runs of the first four rows start from a registry built with the call
at `src/Lightbox.js:77` corrected, as in the fifth row; with that call as
written, no click finds an item, so none of them can happen until it is
fixed.

| source | as written | input that shows it | evidently intended | confidence | as-written member | corrected member |
|---|---|---|---|---|---|---|
| src/Lightbox.js:112-113 | The cached branch shows the item's data but never sets `_index`, so an older load still passes its guard. | Click b, click a; b's load settles; click b (shown from cache); a's load settles and replaces b. | The last click wins: a cached item also becomes the latest request. | not executed; high | Findings.CachedRequestIsOverwritten | GalleryFixed.DisplayFollowsLastRequest |
| src/Lightbox.js:112-119 | `loaded` is set only at settlement, so a second click during a load starts another `load()`. | Click a twice before its load settles. | At most one `load()` per item. | not executed; high | Findings.RepeatedRequestLoadsTwice | GalleryFixed.LoadsAtMostOnce |
| src/Lightbox.js:121-126 | A failed load stores an HTML string, and `appendChild` of a string throws, so the item is never marked loaded and the loading flag stays up. | Click a; its load fails. | The error message is shown, the item is loaded, and the loading flag is cleared. | not executed; high | Findings.FailedCurrentLoadThrows | GalleryFixed.SettleFixed |
| src/Lightbox.js:130 | Every settlement clears the loading flag, including a superseded one. | Click a, click b; a's load settles while b's is in flight. | The loading flag is up while the latest request is loading. | not executed; medium | Findings.SupersededLoadClearsLoading | GalleryFixed.LoadingTracksLatest |
| src/Lightbox.js:77 | `new LightboxImage(key, source)` fills the `(lightbox, key, options)` constructor shifted by one place: the item is keyed by the source and has no `src`. | Any scanned image element whose source differs from its generated key; click it. | The item is keyed by the generated key, with the source as `src`. | not executed; high | Findings.ShiftedRegistryNeverLoads | Gallery.RegisteredFindable |

=== FILE: findings.dfy ===
/**
 * The defects of the coordinator as written: the registry's shifted
 * constructor call, and four runs of the `_get` protocol. Each run holds
 * for every gallery in which the named items are registered and not yet
 * loaded; the corrected registry `Gallery.Register` and the corrected
 * protocol's theorems in `GalleryFixed` state the behaviour each breaks.
 */
module Findings {
  import opened Wrappers
  import opened Items
  import opened Gallery
  import opened GalleryFixed

  /** The position of a registered key's item. */
  function At(g: Gallery, key: Key): nat
    requires Find(g.items, key).Some?
  {
    Find(g.items, key).value
  }

  /** A registered, unloaded item. */
  ghost predicate Unloaded(g: Gallery, key: Key) {
    Find(g.items, key).Some? && !g.items[At(g, key)].loaded
  }

  /** A click on an unloaded item starts its load and makes it the latest
      request. */
  lemma ClickUnloaded(g: Gallery, key: Key)
    requires Unloaded(g, key)
    ensures Click(g, key).g == g.(open := true, display := None, loading := true, index := Some(key), pending := g.pending + multiset{key})
    ensures Click(g, key).thrown.None? && StartLoad(key) in Click(g, key).effects
  {
  }

  /** A click on an item cached with a node shows that node. */
  lemma ClickCached(g: Gallery, key: Key, n: Node)
    requires Find(g.items, key).Some? && g.items[At(g, key)].loaded && g.items[At(g, key)].data == Some(Markup(n))
    ensures Click(g, key).g == g.(open := true, display := Some(n))
  {
  }

  /** A settlement keeps every key where it was. */
  lemma SettleFinds(g: Gallery, key: Key, result: Result<Node, string>, k: Key)
    requires CanSettle(g, key)
    ensures Find(Settle(g, key, result).g.items, k) == Find(g.items, k)
  {
    var i := At(g, key);
    SettleKeys(g.items, i, Settle(g, key, result).g.items[i]);
    SameKeysFind(g.items, Settle(g, key, result).g.items, k);
  }

  /** Two clicks on unloaded items: both loads are in flight, the second
      is the latest request. */
  lemma TwoRequests(g: Gallery, a: Key, b: Key)
    requires a != b && Unloaded(g, a) && Unloaded(g, b)
    ensures var h := Click(Click(g, b).g, a).g;
      && h.items == g.items && h.index == Some(a) && h.loading
      && a in h.pending && b in h.pending
      && h.pending[b] == g.pending[b] + 1
  {
    ClickUnloaded(g, b);
    ClickUnloaded(Click(g, b).g, a);
  }

  /** The older request settles and is cached, then is clicked again. */
  lemma StaleThenCached(g: Gallery, a: Key, b: Key, nb: Node)
    requires a != b && g.index == Some(a) && a in g.pending && CanSettle(g, b) && Find(g.items, a).Some?
    ensures var h := Click(Settle(g, b, Ok(nb)).g, b).g;
      && h.display == Some(nb) && h.index == Some(a) && CanSettle(h, a)
  {
    var g3 := Settle(g, b, Ok(nb)).g;
    SettleFinds(g, b, Ok(nb), b);
    SettleFinds(g, b, Ok(nb), a);
    ClickCached(g3, b, nb);
  }

  /** Request `b`, then `a`; `b` settles first and, not being the latest
      request, is only cached; `b` is requested again and shown from the
      cache; then the older load of `a` settles, passes its guard because the
      cached request never moved the latest-request key, and replaces `b`,
      although `b` was clicked last. */
  lemma CachedRequestIsOverwritten(g: Gallery, a: Key, b: Key, na: Node, nb: Node)
    requires a != b && Unloaded(g, a) && Unloaded(g, b)
    ensures var g2 := Click(Click(g, b).g, a).g;
      && CanSettle(g2, b)
      && var g4 := Click(Settle(g2, b, Ok(nb)).g, b).g;
         && g4.display == Some(nb) && g4.index == Some(a)
         && CanSettle(g4, a)
         && Settle(g4, a, Ok(na)).g.display == Some(na)
  {
    TwoRequests(g, a, b);
    var g2 := Click(Click(g, b).g, a).g;
    StaleThenCached(g2, a, b, nb);
  }

  /** Clicking an item twice before its load settles calls its `load()`
      twice: `loaded` is set only at settlement. */
  lemma RepeatedRequestLoadsTwice(g: Gallery, a: Key)
    requires Unloaded(g, a)
    ensures var o1 := Click(g, a); var o2 := Click(o1.g, a);
      && Count(o1.effects + o2.effects, StartLoad(a)) == 2
      && o2.g.pending[a] == g.pending[a] + 2
  {
    var o1 := Click(g, a);
    ClickUnloaded(g, a);
    ClickUnloaded(o1.g, a);
    var o2 := Click(o1.g, a);
    assert multiset(o1.effects + o2.effects) == multiset(o1.effects) + multiset(o2.effects);
  }

  /** A failed load that is still the latest request throws when its error
      string is appended: the content box stays empty, the item is never
      marked loaded, and the loading flag stays up. */
  lemma FailedCurrentLoadThrows(g: Gallery, a: Key, message: string)
    requires Unloaded(g, a)
    ensures var g1 := Click(g, a).g;
      && CanSettle(g1, a)
      && var o := Settle(g1, a, Err(message));
         && o.thrown == Some(NotANode)
         && o.g.display.None? && o.g.loading
         && Find(o.g.items, a) == Find(g.items, a)
         && !o.g.items[At(g, a)].loaded
  {
    var g1 := Click(g, a).g;
    ClickUnloaded(g, a);
    SettleFinds(g1, a, Err(message), a);
  }

  /** Request `a`, then `b`; the superseded load of `a` settles and clears
      the loading flag although the latest request's load is still in flight. */
  lemma SupersededLoadClearsLoading(g: Gallery, a: Key, b: Key, na: Node)
    requires a != b && Unloaded(g, a) && Unloaded(g, b)
    ensures var g2 := Click(Click(g, a).g, b).g;
      && CanSettle(g2, a)
      && var h := Settle(g2, a, Ok(na)).g;
         && h.index == Some(b) && b in h.pending && !h.loading
  {
    TwoRequests(g, b, a);
  }

  /** The registry as written: the image constructor takes the gallery
      first, so the generated key lands in that slot, the element's source
      becomes the item's key and no `src` option reaches it. An absent
      source gives the key `undefined`, written here as the empty string,
      which the key generator never hands out. */
  function RegisterShifted(descs: seq<ElementDesc>, keys: seq<Key>): (r: Result<seq<Item>, string>)
    requires |keys| == |descs|
    ensures r.Ok? <==> forall i :: 0 <= i < |descs| ==> descs[i].typeTag == Some(IMAGE_TAG)
    ensures r.Err? ==> r.error == INVALID_TYPE
    ensures r.Ok? ==> |r.value| == |descs|
    ensures r.Ok? ==> forall i :: 0 <= i < |descs| ==>
      r.value[i] == NewItem(descs[i].source.GetOr(""), Image(NewImage(ImageOptions(None, None, None, None))))
  {
    if |descs| == 0 then Ok([])
    else if descs[0].typeTag != Some(IMAGE_TAG) then Err(INVALID_TYPE)
    else
      match RegisterShifted(descs[1..], keys[1..])
      case Err(e) => Err(e)
      case Ok(rest) => Ok([NewItem(descs[0].source.GetOr(""), Image(NewImage(ImageOptions(None, None, None, None))))] + rest)
  }

  /** With the shifted registry, a click on an element whose generated key
      is not one of the scanned sources finds no item: the box opens on
      whatever it showed before and no load starts. Every registered image
      has no source. */
  lemma ShiftedRegistryNeverLoads(g: Gallery, descs: seq<ElementDesc>, keys: seq<Key>, i: nat)
    requires |keys| == |descs| && i < |keys| && RegisterShifted(descs, keys).Ok?
    requires g.items == RegisterShifted(descs, keys).value
    requires keys[i] != "" && forall j :: 0 <= j < |descs| ==> descs[j].source != Some(keys[i])
    ensures Find(g.items, keys[i]).None?
    ensures Click(g, keys[i]).g == g.(open := true)
    ensures forall e :: e in Click(g, keys[i]).effects ==> !e.StartLoad?
    ensures forall j :: 0 <= j < |g.items| ==> g.items[j].kind.Image? && g.items[j].kind.image.src.None?
  {
    forall j | 0 <= j < |g.items|
      ensures g.items[j].key != keys[i]
    {
      assert g.items[j].key == descs[j].source.GetOr("");
    }
  }
}

=== FILE: gallery.dfy ===
/**
 * The gallery coordinator as it is written: the open/closed flag and its
 * callbacks, the events that close the box, the registry built from the
 * scanned elements, and the `_get` protocol whose asynchronous loads are
 * split into a request step and a settle step, so that any interleaving of
 * requests and settlements is a sequence of pure steps.
 */
module Gallery {
  import opened Wrappers
  import opened Options
  import opened Items

  /** The constructor's option object. */
  datatype LightboxOptions = LightboxOptions(
    uid: Option<int>,
    onOpen: JsValue,
    onClose: JsValue,
    closeOnBlur: JsValue,
    closeOnEscape: JsValue)

  /** The settings the constructor derives from its options. */
  datatype Config = Config(uid: int, hasOnOpen: bool, hasOnClose: bool, closeOnBlur: bool, closeOnEscape: bool)

  /** The group number: an absent option, or one that reads as 0, falls
      back to 1, since 0 is falsy. */
  function GroupId(uid: Option<int>): (r: int)
    ensures r != 0
    ensures uid.Some? && uid.value != 0 ==> r == uid.value
  {
    if uid.Some? && uid.value != 0 then uid.value else 1
  }

  /** The constructor: callbacks are kept only when callable, and the two
      closing behaviours hold only when the option is exactly `true`. */
  function NewConfig(o: LightboxOptions): (c: Config)
    ensures c.uid != 0
    ensures c.hasOnOpen <==> IsCallable(o.onOpen)
    ensures c.hasOnClose <==> IsCallable(o.onClose)
    ensures c.closeOnBlur <==> o.closeOnBlur == Bool(true)
    ensures c.closeOnEscape <==> o.closeOnEscape == Bool(true)
  {
    Config(GroupId(o.uid), IsCallable(o.onOpen), IsCallable(o.onClose),
      StrictFlag(o.closeOnBlur, false), StrictFlag(o.closeOnEscape, false))
  }

  /** The coordinator's state. `display` is what the content box shows
      (`None` once it has been emptied); `index` is the key of the latest
      load request; `pending` counts, per key, the `load()` calls whose
      promise has not settled yet. */
  datatype Gallery = Gallery(
    config: Config,
    open: bool,
    loading: bool,
    index: Option<Key>,
    display: Option<Node>,
    items: seq<Item>,
    pending: multiset<Key>)

  /** A freshly constructed gallery: closed, idle, empty. */
  function NewGallery(o: LightboxOptions): (g: Gallery)
    ensures !g.open && !g.loading && g.index.None? && g.display.None?
    ensures g.items == [] && g.pending == multiset{}
  {
    Gallery(NewConfig(o), false, false, None, None, [], multiset{})
  }

  /** `isOpen`. */
  predicate IsOpen(g: Gallery) {
    g.open
  }

  /** The calls a step makes out of the model: a `load()` of an item, or
      one of the two callbacks. */
  datatype Effect = StartLoad(key: Key) | OnOpen | OnClose

  /** What a step can throw: appending something that is not a node to
      the content box is a type error. */
  datatype Error = NotANode

  /** The state after a step, the calls it made, and what it threw. */
  datatype Outcome = Outcome(g: Gallery, effects: seq<Effect>, thrown: Option<Error>)

  function Count(effects: seq<Effect>, e: Effect): nat
  {
    multiset(effects)[e]
  }

  /** `open`: opens a closed box and calls `onOpen` once if there is one;
      an open box is left as it is and nothing is called. */
  function Open(g: Gallery): (o: Outcome)
    ensures IsOpen(o.g) && o.thrown.None?
    ensures o.g.(open := g.open) == g
    ensures Count(o.effects, OnOpen) == (if !g.open && g.config.hasOnOpen then 1 else 0)
    ensures |o.effects| == Count(o.effects, OnOpen)
    ensures IsOpen(g) ==> o.g == g && o.effects == []
  {
    if !g.open then
      Outcome(g.(open := true), if g.config.hasOnOpen then [OnOpen] else [], None)
    else
      Outcome(g, [], None)
  }

  /** `close`: closes an open box and calls `onClose` once if there is
      one; a closed box is left as it is and nothing is called. */
  function Close(g: Gallery): (o: Outcome)
    ensures !IsOpen(o.g) && o.thrown.None?
    ensures o.g.(open := g.open) == g
    ensures Count(o.effects, OnClose) == (if g.open && g.config.hasOnClose then 1 else 0)
    ensures |o.effects| == Count(o.effects, OnClose)
    ensures !IsOpen(g) ==> o.g == g && o.effects == []
  {
    if g.open then
      Outcome(g.(open := false), if g.config.hasOnClose then [OnClose] else [], None)
    else
      Outcome(g, [], None)
  }

  /** `toggle`: closes an open box, opens a closed one. */
  function Toggle(g: Gallery): Outcome
  {
    if IsOpen(g) then Close(g) else Open(g)
  }

  /** A second `open` changes nothing and calls nothing, and `close` undoes
      an `open` of a closed box. */
  lemma OpenCloseRoundTrip(g: Gallery)
    ensures Open(Open(g).g) == Outcome(Open(g).g, [], None)
    ensures Close(Close(g).g) == Outcome(Close(g).g, [], None)
    ensures !IsOpen(g) ==> Close(Open(g).g).g == g
    ensures IsOpen(g) ==> Open(Close(g).g).g == g
  {
  }

  /** `toggle` negates `isOpen`, changes nothing else, and calls the
      matching callback; two toggles give back the state. */
  lemma ToggleNegates(g: Gallery)
    ensures IsOpen(Toggle(g).g) == !IsOpen(g)
    ensures Toggle(g).g.(open := g.open) == g
    ensures Toggle(Toggle(g).g).g == g
    ensures Count(Toggle(g).effects, OnOpen) + Count(Toggle(g).effects, OnClose)
      == (if IsOpen(g) then (if g.config.hasOnClose then 1 else 0) else (if g.config.hasOnOpen then 1 else 0))
  {
  }

  /** The events the box listens to: a key press anywhere in the document,
      or a click inside the box on an element with the given classes
      (`onInner` when the click landed on the inner box itself). */
  datatype DomEvent = KeyDown(keyCode: int) | BoxClick(onInner: bool, classes: set<string>)

  const ESCAPE_KEY := 27
  const CLOSE_CLASS := "lightbox__close"

  /** Whether an event closes the box. */
  function ClosesOn(c: Config, e: DomEvent): bool
  {
    match e
    case KeyDown(code) => code == ESCAPE_KEY && c.closeOnEscape
    case BoxClick(onInner, classes) => (onInner && c.closeOnBlur) || CLOSE_CLASS in classes
  }

  /** The box's and the document's listeners. An open box is closed by
      Escape when that is enabled, by a click on the inner box when that is
      enabled, and by a click on an element with the closing class always;
      nothing else closes it, and a closed box is left alone. */
  function HandleDom(g: Gallery, e: DomEvent): (o: Outcome)
    ensures o.thrown.None? && o.g.(open := g.open) == g
    ensures (IsOpen(g) && !IsOpen(o.g)) <==>
      (IsOpen(g) && ((e.KeyDown? && e.keyCode == 27 && g.config.closeOnEscape)
                     || (e.BoxClick? && (CLOSE_CLASS in e.classes || (e.onInner && g.config.closeOnBlur)))))
    ensures IsOpen(o.g) ==> o.g == g && o.effects == []
    ensures Count(o.effects, OnClose) == (if IsOpen(g) && !IsOpen(o.g) && g.config.hasOnClose then 1 else 0)
    ensures |o.effects| == Count(o.effects, OnClose)
    ensures forall f :: f in o.effects ==> f == OnClose
    ensures ClosesOn(g.config, e) ==> o == Close(g)
    ensures !ClosesOn(g.config, e) ==> o.g == g && o.effects == []
  {
    if ClosesOn(g.config, e) then Close(g) else Outcome(g, [], None)
  }

  /** The page's own calls of the public `open`, `close` and `toggle`. */
  datatype ApiCall = OpenCall | CloseCall | ToggleCall

  /** A call of the public interface: the box ends up in the requested
      state, nothing else changes, and a callback fires exactly when the
      box changes state and the matching callback exists. */
  function HandleApi(g: Gallery, c: ApiCall): (o: Outcome)
    ensures o.thrown.None? && o.g.(open := g.open) == g
    ensures IsOpen(o.g) == (match c case OpenCall => true case CloseCall => false case ToggleCall => !IsOpen(g))
    ensures Count(o.effects, OnOpen) == (if !IsOpen(g) && IsOpen(o.g) && g.config.hasOnOpen then 1 else 0)
    ensures Count(o.effects, OnClose) == (if IsOpen(g) && !IsOpen(o.g) && g.config.hasOnClose then 1 else 0)
    ensures |o.effects| == Count(o.effects, OnOpen) + Count(o.effects, OnClose)
    ensures forall f :: f in o.effects ==> f == OnOpen || f == OnClose
  {
    match c
    case OpenCall => Open(g)
    case CloseCall => Close(g)
    case ToggleCall => Toggle(g)
  }

  /** `find`: the position of the first item with the key. */
  function Find(items: seq<Item>, key: Key): (r: Option<nat>)
    ensures r.Some? ==> r.value < |items| && items[r.value].key == key
    ensures r.Some? ==> forall j :: 0 <= j < r.value ==> items[j].key != key
    ensures r.None? <==> forall j :: 0 <= j < |items| ==> items[j].key != key
  {
    if |items| == 0 then None
    else if items[0].key == key then Some(0)
    else
      match Find(items[1..], key)
      case None => None
      case Some(i) => Some(i + 1)
  }

  /** What the scan reads from a marked element: its source and its type. */
  datatype ElementDesc = ElementDesc(source: Option<string>, typeTag: Option<string>)

  const INVALID_TYPE := "Invalid lightbox type"

  /** The registry: one item per scanned element, keyed by the key the
      oracle handed out for it, with the element's source as its `src`;
      only images are accepted. The call in the source passes these
      arguments shifted by one place; `Findings.RegisterShifted` is that
      version. */
  function Register(descs: seq<ElementDesc>, keys: seq<Key>): (r: Result<seq<Item>, string>)
    requires |keys| == |descs|
    ensures r.Ok? <==> forall i :: 0 <= i < |descs| ==> descs[i].typeTag == Some(IMAGE_TAG)
    ensures r.Err? ==> r.error == INVALID_TYPE
    ensures r.Ok? ==> |r.value| == |descs|
    ensures r.Ok? ==> forall i :: 0 <= i < |descs| ==>
      && r.value[i] == NewItem(keys[i], Image(NewImage(ImageOptions(descs[i].source, None, None, None))))
      && Some(TypeName(r.value[i].kind)) == descs[i].typeTag
  {
    if |descs| == 0 then Ok([])
    else if descs[0].typeTag != Some(IMAGE_TAG) then Err(INVALID_TYPE)
    else
      match Register(descs[1..], keys[1..])
      case Err(e) => Err(e)
      case Ok(rest) => Ok([NewItem(keys[0], Image(NewImage(ImageOptions(descs[0].source, None, None, None))))] + rest)
  }

  /** The key oracle never hands out the same key twice. */
  ghost predicate Fresh(keys: seq<Key>) {
    forall i, j :: 0 <= i < j < |keys| ==> keys[i] != keys[j]
  }

  /** With fresh keys, every registered item is found by its own key. */
  lemma RegisteredFindable(descs: seq<ElementDesc>, keys: seq<Key>)
    requires |keys| == |descs| && Fresh(keys) && Register(descs, keys).Ok?
    ensures forall i :: 0 <= i < |keys| ==> Find(Register(descs, keys).value, keys[i]) == Some(i)
  {
    var items := Register(descs, keys).value;
    forall i | 0 <= i < |keys|
      ensures items[i].key == keys[i]
    {
      assert items[i] == NewItem(keys[i], Image(NewImage(ImageOptions(descs[i].source, None, None, None))));
    }
    FindByDistinctKeys(items, keys);
  }

  /** Items carrying pairwise distinct keys are each found at their own
      position. */
  lemma FindByDistinctKeys(items: seq<Item>, keys: seq<Key>)
    requires |items| == |keys| && Fresh(keys)
    requires forall i :: 0 <= i < |keys| ==> items[i].key == keys[i]
    ensures forall i :: 0 <= i < |keys| ==> Find(items, keys[i]) == Some(i)
  {
    forall i | 0 <= i < |keys|
      ensures Find(items, keys[i]) == Some(i)
    {
      var r := Find(items, keys[i]);
      assert r.Some? by {
        assert items[i].key == keys[i];
      }
      assert keys[r.value] == items[r.value].key == keys[i];
    }
  }

  /** The scan: a successful registry replaces the items; a throw leaves
      the gallery as it was. */
  function Scan(g: Gallery, descs: seq<ElementDesc>, keys: seq<Key>): (h: Gallery)
    requires |keys| == |descs|
    ensures h.(items := g.items) == g
    ensures Register(descs, keys).Ok? ==> h.items == Register(descs, keys).value
    ensures Register(descs, keys).Err? ==> h == g
  {
    match Register(descs, keys)
    case Ok(items) => g.(items := items)
    case Err(_) => g
  }

  /** `_get` as written. */
  function Get(g: Gallery, key: Key): (o: Outcome)
    ensures o.g.items == g.items && o.g.open == g.open && o.g.config == g.config
    ensures Find(g.items, key).None? ==> o == Outcome(g, [], None)
    ensures Find(g.items, key).Some? && g.items[Find(g.items, key).value].loaded ==>
      && o.g.(display := g.display) == g && o.effects == []
      && var d := g.items[Find(g.items, key).value].data;
      (d.Some? && d.value.Markup? ==> o.g.display == Some(d.value.node) && o.thrown.None?)
      && (!(d.Some? && d.value.Markup?) ==> o.g.display.None? && o.thrown == Some(NotANode))
    ensures Find(g.items, key).Some? && !g.items[Find(g.items, key).value].loaded ==>
      && o.g.display.None? && o.g.index == Some(key) && o.g.loading
      && o.g.pending == g.pending + multiset{key}
      && o.effects == [StartLoad(key)] && o.thrown.None?
  {
    match Find(g.items, key)
    case None => Outcome(g, [], None)
    case Some(i) =>
      var it := g.items[i];
      if it.loaded then
        if it.data.Some? && it.data.value.Markup? then
          Outcome(g.(display := Some(it.data.value.node)), [], None)
        else
          Outcome(g.(display := None), [], Some(NotANode))
      else
        Outcome(g.(display := None, loading := true, index := Some(key), pending := g.pending + multiset{key}),
          [StartLoad(key)], None)
  }

  /** A load of `key` can settle: it was started and its item is registered. */
  predicate CanSettle(g: Gallery, key: Key) {
    key in g.pending && Find(g.items, key).Some?
  }

  /** What a settled load stores in its item's `data`. */
  function Stored(result: Result<Node, string>): (d: Data)
    ensures result.Ok? <==> d.Markup?
    ensures result.Ok? ==> d == Markup(result.value)
    ensures result.Err? ==> d == Html(ERROR_HTML)
  {
    match result
    case Ok(n) => Markup(n)
    case Err(_) => Html(ERROR_HTML)
  }

  /** Whether a settlement runs to its end: it throws only when the
      failed load is still the latest request, since then the error string
      is appended to the content box. */
  predicate SettleCompletes(g: Gallery, key: Key, result: Result<Node, string>) {
    result.Ok? || g.index != Some(key)
  }

  /** The settled item: its data is stored, and it is marked loaded unless
      the settlement threw before reaching that point. */
  function SettledItem(it: Item, result: Result<Node, string>, completes: bool): (r: Item)
    ensures r.data == Some(Stored(result))
    ensures r.loaded == (completes || it.loaded)
    ensures r.(data := it.data, loaded := it.loaded) == it
  {
    it.(data := Some(Stored(result)), loaded := completes || it.loaded)
  }

  /** The settlement of a `load()` started by `_get(key)`, as written. The
      content box is emptied and the data appended only when the load is
      still the latest request; when that data is the error string the
      append throws, and neither the item nor the loading flag is updated
      past that point. */
  function Settle(g: Gallery, key: Key, result: Result<Node, string>): (o: Outcome)
    requires CanSettle(g, key)
    ensures o.effects == [] && o.g.open == g.open && o.g.index == g.index && o.g.config == g.config
    ensures o.g.pending == g.pending - multiset{key}
    ensures var i := Find(g.items, key).value;
      o.g.items == g.items[i := SettledItem(g.items[i], result, SettleCompletes(g, key, result))]
    ensures SettleCompletes(g, key, result) ==> !o.g.loading && o.thrown.None?
    ensures !SettleCompletes(g, key, result) ==> o.g.loading == g.loading && o.thrown == Some(NotANode)
    ensures g.index != Some(key) ==> o.g.display == g.display
    ensures g.index == Some(key) ==> o.g.display == (if result.Ok? then Some(result.value) else None)
  {
    var i := Find(g.items, key).value;
    var completes := SettleCompletes(g, key, result);
    var display := if g.index != Some(key) then g.display else if result.Ok? then Some(result.value) else None;
    Outcome(
      g.(items := g.items[i := SettledItem(g.items[i], result, completes)],
         display := display,
         loading := if completes then false else g.loading,
         pending := g.pending - multiset{key}),
      [],
      if completes then None else Some(NotANode))
  }

  /** A click on a marked element: `_get(key)`, then `open()`. A throw in
      `_get` ends the handler before the box opens. */
  function Click(g: Gallery, key: Key): (o: Outcome)
    ensures Get(g, key).thrown.None? ==> IsOpen(o.g) && o.thrown.None?
    ensures Get(g, key).thrown.Some? ==> o == Get(g, key) && o.g.open == g.open
    ensures o.g.(open := g.open) == Get(g, key).g
    ensures Get(g, key).thrown.None? ==> o.effects == Get(g, key).effects + Open(Get(g, key).g).effects
  {
    var got := Get(g, key);
    if got.thrown.Some? then got
    else
      var shown := Open(got.g);
      Outcome(shown.g, got.effects + shown.effects, None)
  }

  /** The events the coordinator reacts to: a click on a marked element,
      the settlement of a load, the box's own listeners, and the page's
      calls of the public interface. */
  datatype Event =
    | Request(key: Key)
    | Complete(key: Key, result: Result<Node, string>)
    | Dom(e: DomEvent)
    | Api(call: ApiCall)

  /** A run's final state, the calls it made, and how many of its events
      threw. */
  datatype Trace = Trace(g: Gallery, effects: seq<Effect>, throws: nat)

  /** One event of the coordinator as written; `None` when the event is a
      settlement of a load that is not in flight. */
  function Step(g: Gallery, e: Event): Option<Outcome>
  {
    match e
    case Request(key) => Some(Click(g, key))
    case Complete(key, result) => if CanSettle(g, key) then Some(Settle(g, key, result)) else None
    case Dom(d) => Some(HandleDom(g, d))
    case Api(c) => Some(HandleApi(g, c))
  }

  function Run(g: Gallery, events: seq<Event>): Option<Trace>
    decreases |events|
  {
    if |events| == 0 then Some(Trace(g, [], 0))
    else
      match Step(g, events[0])
      case None => None
      case Some(o) =>
        match Run(o.g, events[1..])
        case None => None
        case Some(t) => Some(Trace(t.g, o.effects + t.effects, t.throws + if o.thrown.Some? then 1 else 0))
  }

  /** Every run of the coordinator as written keeps the gallery well formed
      and the registry's keys. */
  lemma {:induction false} RunWf(g: Gallery, events: seq<Event>)
    requires Wf(g) && Run(g, events).Some?
    ensures Wf(Run(g, events).value.g)
    ensures Keys(Run(g, events).value.g.items) == Keys(g.items)
    decreases |events|
  {
    if |events| > 0 {
      var o := Step(g, events[0]).value;
      StepWf(g, events[0]);
      RunWf(o.g, events[1..]);
    }
  }

  /** The keys of the registry. */
  function Keys(items: seq<Item>): (ks: seq<Key>)
    ensures |ks| == |items| && forall i :: 0 <= i < |items| ==> ks[i] == items[i].key
  {
    seq(|items|, i requires 0 <= i < |items| => items[i].key)
  }

  /** What every reachable gallery satisfies: loads in flight belong to
      registered items, a loaded item has data, and the per-item `loading`
      and `failed` flags are never set. */
  ghost predicate Wf(g: Gallery) {
    && (forall k :: k in g.pending ==> Find(g.items, k).Some?)
    && (forall i :: 0 <= i < |g.items| ==> g.items[i].loaded ==> g.items[i].data.Some?)
    && (forall i :: 0 <= i < |g.items| ==> !g.items[i].loading && !g.items[i].failed)
  }

  lemma NewGalleryWf(o: LightboxOptions, descs: seq<ElementDesc>, keys: seq<Key>)
    requires |keys| == |descs|
    ensures Wf(NewGallery(o)) && Wf(Scan(NewGallery(o), descs, keys))
  {
  }

  /** Every step keeps the gallery well formed and the registry's keys. */
  lemma StepWf(g: Gallery, e: Event)
    requires Wf(g) && Step(g, e).Some?
    ensures Wf(Step(g, e).value.g)
    ensures Keys(Step(g, e).value.g.items) == Keys(g.items)
  {
    match e
    case Request(key) => ClickWf(g, key);
    case Complete(key, result) => SettleWf(g, key, result);
    case Dom(d) =>
    case Api(c) =>
  }

  lemma ClickWf(g: Gallery, key: Key)
    requires Wf(g)
    ensures Wf(Click(g, key).g) && Click(g, key).g.items == g.items
  {
    var h := Click(g, key).g;
    assert h.items == g.items;
    forall k | k in h.pending
      ensures Find(h.items, k).Some?
    {
      if k != key {
        assert k in g.pending;
      }
    }
  }

  lemma SettleWf(g: Gallery, key: Key, result: Result<Node, string>)
    requires Wf(g) && CanSettle(g, key)
    ensures Wf(Settle(g, key, result).g)
    ensures Keys(Settle(g, key, result).g.items) == Keys(g.items)
  {
    var h := Settle(g, key, result).g;
    var i := Find(g.items, key).value;
    var it := SettledItem(g.items[i], result, SettleCompletes(g, key, result));
    assert h.items == g.items[i := it];
    SettleKeys(g.items, i, it);
    forall k | k in h.pending
      ensures Find(h.items, k).Some?
    {
      assert k in g.pending;
      SameKeysFind(g.items, h.items, k);
    }
    forall j | 0 <= j < |h.items|
      ensures (h.items[j].loaded ==> h.items[j].data.Some?) && !h.items[j].loading && !h.items[j].failed
    {
      if j != i {
        assert h.items[j] == g.items[j];
      }
    }
  }

  /** Replacing an item by one with the same key keeps the keys. */
  lemma SettleKeys(items: seq<Item>, i: nat, it: Item)
    requires i < |items| && it.key == items[i].key
    ensures Keys(items[i := it]) == Keys(items)
  {
  }

  /** `find` depends only on the keys. */
  lemma {:induction false} SameKeysFind(a: seq<Item>, b: seq<Item>, key: Key)
    requires Keys(a) == Keys(b)
    ensures Find(a, key) == Find(b, key)
  {
    if |a| > 0 {
      assert a[0].key == Keys(a)[0] == Keys(b)[0] == b[0].key;
      assert Keys(a[1..]) == Keys(a)[1..];
      assert Keys(b[1..]) == Keys(b)[1..];
      SameKeysFind(a[1..], b[1..], key);
    }
  }
}

=== FILE: gallery_fixed.dfy ===
/**
 * The `_get` protocol with its four defects corrected. A cached request
 * becomes the latest request; a request for an item whose load is in
 * flight waits for that load instead of starting another; a failed load
 * stores the error paragraph as a node; and only the latest request's
 * settlement clears the loading flag. The open/closed flag, the closing
 * events and the registry are those of `Gallery`.
 */
module GalleryFixed {
  import opened Wrappers
  import opened Items
  import opened Gallery

  /** The node an item's data holds, if it holds one. */
  function NodeOf(d: Option<Data>): (n: Option<Node>)
    ensures n.Some? <==> d.Some? && d.value.Markup?
    ensures n.Some? ==> d.value == Markup(n.value)
  {
    if d.Some? && d.value.Markup? then Some(d.value.node) else None
  }

  /** What a settled load stores: the loaded node, or the error paragraph. */
  function StoredNode(result: Result<Node, string>): (n: Node)
    ensures result.Ok? ==> n == result.value
    ensures result.Err? ==> n == ErrorMessage
  {
    match result
    case Ok(node) => node
    case Err(_) => ErrorMessage
  }

  /** A load of `key` has been started: it is in flight or has settled. */
  ghost predicate Started(g: Gallery, key: Key) {
    key in g.pending || (Find(g.items, key).Some? && g.items[Find(g.items, key).value].loaded)
  }

  /** `_get`, corrected. */
  function GetFixed(g: Gallery, key: Key): (o: Outcome)
    ensures o.thrown.None? && o.g.items == g.items && o.g.open == g.open && o.g.config == g.config
    ensures Find(g.items, key).None? ==> o == Outcome(g, [], None)
    ensures Find(g.items, key).Some? ==> o.g.index == Some(key)
    ensures forall e :: e in o.effects ==> e == StartLoad(key)
    ensures Count(o.effects, StartLoad(key)) == (if Find(g.items, key).Some? && !Started(g, key) then 1 else 0)
    ensures o.g.pending == g.pending + (if o.effects == [] then multiset{} else multiset{key})
  {
    match Find(g.items, key)
    case None => Outcome(g, [], None)
    case Some(i) =>
      var it := g.items[i];
      if it.loaded then
        Outcome(g.(display := NodeOf(it.data), index := Some(key), loading := false), [], None)
      else if key in g.pending then
        Outcome(g.(display := None, index := Some(key), loading := true), [], None)
      else
        Outcome(g.(display := None, index := Some(key), loading := true, pending := g.pending + multiset{key}),
          [StartLoad(key)], None)
  }

  /** The settlement of a load, corrected: the item always ends loaded with
      a node, and only the latest request's settlement touches the content
      box and the loading flag. */
  function SettleFixed(g: Gallery, key: Key, result: Result<Node, string>): (o: Outcome)
    requires CanSettle(g, key)
    ensures o.thrown.None? && o.effects == []
    ensures o.g.open == g.open && o.g.index == g.index && o.g.config == g.config
    ensures o.g.pending == g.pending - multiset{key}
    ensures var i := Find(g.items, key).value;
      o.g.items == g.items[i := g.items[i].(data := Some(Markup(StoredNode(result))), loaded := true)]
    ensures g.index == Some(key) ==> o.g.display == Some(StoredNode(result)) && !o.g.loading
    ensures g.index != Some(key) ==> o.g.display == g.display && o.g.loading == g.loading
  {
    var i := Find(g.items, key).value;
    var current := g.index == Some(key);
    Outcome(
      g.(items := g.items[i := g.items[i].(data := Some(Markup(StoredNode(result))), loaded := true)],
         display := if current then Some(StoredNode(result)) else g.display,
         loading := if current then false else g.loading,
         pending := g.pending - multiset{key}),
      [], None)
  }

  /** A click on a marked element: `_get(key)`, then `open()`. */
  function ClickFixed(g: Gallery, key: Key): (o: Outcome)
    ensures IsOpen(o.g) && o.thrown.None?
    ensures o.g.(open := g.open) == GetFixed(g, key).g
    ensures Count(o.effects, StartLoad(key)) == Count(GetFixed(g, key).effects, StartLoad(key))
    ensures forall k :: k != key ==> Count(o.effects, StartLoad(k)) == 0
  {
    var got := GetFixed(g, key);
    var shown := Open(got.g);
    Outcome(shown.g, got.effects + shown.effects, None)
  }

  function StepFixed(g: Gallery, e: Event): Option<Outcome>
  {
    match e
    case Request(key) => Some(ClickFixed(g, key))
    case Complete(key, result) => if CanSettle(g, key) then Some(SettleFixed(g, key, result)) else None
    case Dom(d) => Some(HandleDom(g, d))
    case Api(c) => Some(HandleApi(g, c))
  }

  function RunFixed(g: Gallery, events: seq<Event>): Option<Trace>
    decreases |events|
  {
    if |events| == 0 then Some(Trace(g, [], 0))
    else
      match StepFixed(g, events[0])
      case None => None
      case Some(o) =>
        match RunFixed(o.g, events[1..])
        case None => None
        case Some(t) => Some(Trace(t.g, o.effects + t.effects, t.throws + if o.thrown.Some? then 1 else 0))
  }

  /** The item the latest request named, when it is registered. */
  function Current(g: Gallery): Option<Item>
  {
    if g.index.Some? && Find(g.items, g.index.value).Some? then Some(g.items[Find(g.items, g.index.value).value]) else None
  }

  /** The invariant of the corrected protocol: see its three parts. */
  ghost predicate Coherent(g: Gallery) {
    PendingOk(g) && ItemsOk(g) && CurrentOk(g)
  }

  /** Every load in flight is the only one for its key and belongs to a
      registered item that is not loaded yet. */
  ghost predicate PendingOk(g: Gallery) {
    forall k :: k in g.pending ==>
      g.pending[k] == 1 && Find(g.items, k).Some? && !g.items[Find(g.items, k).value].loaded
  }

  /** Every loaded item holds a node; the per-item flags are never set. */
  ghost predicate ItemsOk(g: Gallery) {
    forall i :: 0 <= i < |g.items| ==>
      (g.items[i].loaded ==> NodeOf(g.items[i].data).Some?) && !g.items[i].loading && !g.items[i].failed
  }

  /** The latest request names a registered item, and either that item is
      loaded and the content box shows its node with the loading flag down,
      or its load is in flight, the box is empty and the loading flag up.
      Before any request the box is empty and idle. */
  ghost predicate CurrentOk(g: Gallery) {
    && (g.index.None? ==> g.display.None? && !g.loading)
    && (g.index.Some? ==> Current(g).Some? && Shows(g, g.index.value, Current(g).value))
  }

  /** The content box and loading flag agree with the latest request. */
  ghost predicate Shows(g: Gallery, key: Key, it: Item) {
    if it.loaded then g.display == NodeOf(it.data) && !g.loading && key !in g.pending
    else key in g.pending && g.display.None? && g.loading
  }

  /** A registered, freshly constructed gallery is coherent. */
  lemma InitialCoherent(o: LightboxOptions, descs: seq<ElementDesc>, keys: seq<Key>)
    requires |keys| == |descs|
    ensures Coherent(Scan(NewGallery(o), descs, keys))
  {
  }

  lemma GetFixedCoherent(g: Gallery, key: Key)
    requires Coherent(g)
    ensures Coherent(GetFixed(g, key).g)
  {
    var h := GetFixed(g, key).g;
    match Find(g.items, key)
    case None =>
    case Some(i) =>
      assert Current(h) == Some(g.items[i]);
      forall k | k in h.pending
        ensures h.pending[k] == 1 && Find(h.items, k).Some? && !h.items[Find(h.items, k).value].loaded
      {
        if k != key {
          assert k in g.pending;
        }
      }
  }

  /** The settled item's position and the items after the settlement. */
  lemma SettleFixedItems(g: Gallery, key: Key, result: Result<Node, string>)
    requires CanSettle(g, key)
    ensures var i := Find(g.items, key).value; var h := SettleFixed(g, key, result).g;
      && Keys(h.items) == Keys(g.items)
      && h.items[i].loaded && h.items[i].key == key
      && (forall j :: 0 <= j < |g.items| && j != i ==> h.items[j] == g.items[j])
      && (forall k :: Find(h.items, k) == Find(g.items, k))
  {
    var i := Find(g.items, key).value;
    var h := SettleFixed(g, key, result).g;
    SettleKeys(g.items, i, h.items[i]);
    forall k
      ensures Find(h.items, k) == Find(g.items, k)
    {
      SameKeysFind(g.items, h.items, k);
    }
  }

  lemma SettleFixedPending(g: Gallery, key: Key, result: Result<Node, string>)
    requires PendingOk(g) && CanSettle(g, key)
    ensures PendingOk(SettleFixed(g, key, result).g)
  {
    var h := SettleFixed(g, key, result).g;
    var i := Find(g.items, key).value;
    SettleFixedItems(g, key, result);
    forall k | k in h.pending
      ensures h.pending[k] == 1 && Find(h.items, k).Some? && !h.items[Find(h.items, k).value].loaded
    {
      assert k != key;
      assert k in g.pending;
      assert Find(h.items, k).value != i;
    }
  }

  lemma SettleFixedItemsOk(g: Gallery, key: Key, result: Result<Node, string>)
    requires ItemsOk(g) && CanSettle(g, key)
    ensures ItemsOk(SettleFixed(g, key, result).g)
  {
    var h := SettleFixed(g, key, result).g;
    var i := Find(g.items, key).value;
    SettleFixedItems(g, key, result);
    forall j | 0 <= j < |h.items|
      ensures (h.items[j].loaded ==> NodeOf(h.items[j].data).Some?) && !h.items[j].loading && !h.items[j].failed
    {
      if j != i {
        assert h.items[j] == g.items[j];
      }
    }
  }

  lemma SettleFixedCurrent(g: Gallery, key: Key, result: Result<Node, string>)
    requires PendingOk(g) && CurrentOk(g) && CanSettle(g, key)
    ensures CurrentOk(SettleFixed(g, key, result).g)
  {
    var h := SettleFixed(g, key, result).g;
    var i := Find(g.items, key).value;
    SettleFixedItems(g, key, result);
    if g.index.Some? {
      var k := g.index.value;
      if k != key {
        var j := Find(g.items, k).value;
        assert Find(h.items, k) == Find(g.items, k);
        assert g.items[j].key == k && g.items[i].key == key;
        assert h.items[j] == g.items[j];
        assert Current(h) == Current(g);
        assert h.display == g.display && h.loading == g.loading;
        assert k in h.pending <==> k in g.pending;
      } else {
        assert Current(h) == Some(h.items[i]);
        assert h.items[i].data == Some(Markup(StoredNode(result)));
        assert g.pending[key] == 1;
        assert key !in h.pending;
      }
    }
  }

  lemma SettleFixedCoherent(g: Gallery, key: Key, result: Result<Node, string>)
    requires Coherent(g) && CanSettle(g, key)
    ensures Coherent(SettleFixed(g, key, result).g)
    ensures Keys(SettleFixed(g, key, result).g.items) == Keys(g.items)
  {
    SettleFixedItems(g, key, result);
    SettleFixedPending(g, key, result);
    SettleFixedItemsOk(g, key, result);
    SettleFixedCurrent(g, key, result);
  }

  /** The flag of the box plays no part in the invariant. */
  lemma CoherentIgnoresOpen(g: Gallery, h: Gallery)
    requires Coherent(g) && h.(open := g.open) == g
    ensures Coherent(h)
  {
    assert Current(h) == Current(g);
  }

  /** Every corrected step keeps the gallery coherent and the registry's keys. */
  lemma StepFixedCoherent(g: Gallery, e: Event)
    requires Coherent(g) && StepFixed(g, e).Some?
    ensures Coherent(StepFixed(g, e).value.g)
    ensures Keys(StepFixed(g, e).value.g.items) == Keys(g.items)
  {
    match e
    case Request(key) =>
      GetFixedCoherent(g, key);
      CoherentIgnoresOpen(GetFixed(g, key).g, ClickFixed(g, key).g);
    case Complete(key, result) =>
      SettleFixedCoherent(g, key, result);
    case Dom(d) =>
      CoherentIgnoresOpen(g, HandleDom(g, d).g);
    case Api(c) =>
      CoherentIgnoresOpen(g, HandleApi(g, c).g);
  }

  /** A run of corrected steps from a coherent gallery stays coherent,
      keeps the registry's keys and never throws. */
  lemma {:induction false} RunFixedCoherent(g: Gallery, events: seq<Event>)
    requires Coherent(g) && RunFixed(g, events).Some?
    ensures Coherent(RunFixed(g, events).value.g)
    ensures Keys(RunFixed(g, events).value.g.items) == Keys(g.items)
    ensures RunFixed(g, events).value.throws == 0
    decreases |events|
  {
    if |events| > 0 {
      var o := StepFixed(g, events[0]).value;
      StepFixedCoherent(g, events[0]);
      RunFixedCoherent(o.g, events[1..]);
    }
  }

  /** The key of the last click on a registered element. */
  function LastRequest(items: seq<Item>, events: seq<Event>): (r: Option<Key>)
    ensures r.Some? ==> Find(items, r.value).Some?
    decreases |events|
  {
    if |events| == 0 then None
    else
      match LastRequest(items, events[1..])
      case Some(k) => Some(k)
      case None =>
        if events[0].Request? && Find(items, events[0].key).Some? then Some(events[0].key) else None
  }

  /** Only a click on a registered element moves the latest request. */
  lemma {:induction false} RunFixedIndex(g: Gallery, events: seq<Event>)
    requires Coherent(g) && RunFixed(g, events).Some?
    ensures RunFixed(g, events).value.g.index
      == (if LastRequest(g.items, events).Some? then LastRequest(g.items, events) else g.index)
    decreases |events|
  {
    if |events| > 0 {
      var o := StepFixed(g, events[0]).value;
      StepFixedCoherent(g, events[0]);
      RunFixedIndex(o.g, events[1..]);
      StepFixedIndex(g, events[0]);
      forall k
        ensures Find(o.g.items, k) == Find(g.items, k)
      {
        SameKeysFind(g.items, o.g.items, k);
      }
      LastRequestSameKeys(g.items, o.g.items, events[1..]);
    }
  }

  /** One corrected step moves the latest request exactly when it is a
      click on a registered element. */
  lemma StepFixedIndex(g: Gallery, e: Event)
    requires StepFixed(g, e).Some?
    ensures StepFixed(g, e).value.g.index
      == (if e.Request? && Find(g.items, e.key).Some? then Some(e.key) else g.index)
  {
    match e
    case Request(key) =>
      assert ClickFixed(g, key).g.index == GetFixed(g, key).g.index;
    case Complete(key, result) =>
    case Dom(d) =>
    case Api(c) =>
  }

  lemma {:induction false} LastRequestSameKeys(a: seq<Item>, b: seq<Item>, events: seq<Event>)
    requires forall k :: Find(a, k) == Find(b, k)
    ensures LastRequest(a, events) == LastRequest(b, events)
    decreases |events|
  {
    if |events| > 0 {
      LastRequestSameKeys(a, b, events[1..]);
    }
  }

  /** After any run of corrected steps, the content box follows the last
      click on a registered element: once that item is loaded the box shows
      its node and the loading flag is down; until then the box is empty and
      the loading flag up. No older load can take its place. */
  lemma DisplayFollowsLastRequest(g: Gallery, events: seq<Event>)
    requires Coherent(g) && RunFixed(g, events).Some?
    ensures LastRequest(g.items, events).Some? ==>
      var h := RunFixed(g, events).value.g; var k := LastRequest(g.items, events).value;
      && h.index == Some(k)
      && Find(h.items, k).Some?
      && var it := h.items[Find(h.items, k).value];
         && it.key == k
         && (it.loaded ==> h.display == NodeOf(it.data) && h.display.Some? && !h.loading)
         && (!it.loaded ==> h.display.None? && h.loading && k in h.pending)
  {
    RunFixedCoherent(g, events);
    RunFixedIndex(g, events);
  }

  /** The loading flag is up exactly while the latest request's load is in
      flight. */
  lemma LoadingTracksLatest(g: Gallery)
    requires Coherent(g)
    ensures g.loading <==> g.index.Some? && g.index.value in g.pending
  {
    if g.index.Some? {
      var it := Current(g).value;
      assert Find(g.items, g.index.value).Some?;
      if it.loaded {
        assert g.index.value !in g.pending;
      }
    }
  }

  /** Per step, a key's load is called exactly when the key goes from not
      started to started, and a started key stays started. */
  lemma StepFixedStarts(g: Gallery, e: Event, k: Key)
    requires Coherent(g) && StepFixed(g, e).Some?
    ensures var o := StepFixed(g, e).value;
      && (Started(g, k) ==> Started(o.g, k))
      && Count(o.effects, StartLoad(k)) == (if Started(o.g, k) && !Started(g, k) then 1 else 0)
  {
    match e
    case Request(key) =>
      assert StepFixed(g, e) == Some(ClickFixed(g, key));
      ClickStarts(g, key, k);
    case Complete(key, result) =>
      assert StepFixed(g, e) == Some(SettleFixed(g, key, result));
      SettleStarts(g, key, result, k);
    case Dom(d) =>
      QuietStepStarts(g, HandleDom(g, d), k);
    case Api(c) =>
      QuietStepStarts(g, HandleApi(g, c), k);
  }

  /** A step that keeps the items and the loads in flight and makes only
      callback calls starts nothing. */
  lemma QuietStepStarts(g: Gallery, o: Outcome, k: Key)
    requires o.g.items == g.items && o.g.pending == g.pending
    requires forall f :: f in o.effects ==> f == OnOpen || f == OnClose
    ensures Started(o.g, k) == Started(g, k) && Count(o.effects, StartLoad(k)) == 0
  {
    assert StartLoad(k) !in o.effects;
    assert StartLoad(k) !in multiset(o.effects);
  }

  lemma ClickStarts(g: Gallery, key: Key, k: Key)
    requires Coherent(g)
    ensures var o := ClickFixed(g, key);
      && (Started(g, k) ==> Started(o.g, k))
      && Count(o.effects, StartLoad(k)) == (if Started(o.g, k) && !Started(g, k) then 1 else 0)
  {
    var o := ClickFixed(g, key);
    assert o.g.items == g.items;
    if k != key {
      assert k in o.g.pending <==> k in g.pending;
    }
  }

  lemma SettleStarts(g: Gallery, key: Key, result: Result<Node, string>, k: Key)
    requires Coherent(g) && CanSettle(g, key)
    ensures var h := SettleFixed(g, key, result).g; Started(h, k) == Started(g, k)
  {
    var h := SettleFixed(g, key, result).g;
    SettleFixedItems(g, key, result);
    var i := Find(g.items, key).value;
    if k != key {
      assert k in h.pending <==> k in g.pending;
      if Find(g.items, k).Some? {
        assert Find(g.items, k).value != i;
      }
    }
  }

  /** Over any run of corrected steps, each item's `load()` is called at
      most once in all, counting a load started before the run. */
  lemma {:induction false} LoadsAtMostOnce(g: Gallery, events: seq<Event>, k: Key)
    requires Coherent(g) && RunFixed(g, events).Some?
    ensures var t := RunFixed(g, events).value;
      && (Started(g, k) ==> Started(t.g, k))
      && Count(t.effects, StartLoad(k)) == (if Started(t.g, k) && !Started(g, k) then 1 else 0)
    decreases |events|
  {
    if |events| > 0 {
      var o := StepFixed(g, events[0]).value;
      StepFixedCoherent(g, events[0]);
      StepFixedStarts(g, events[0], k);
      LoadsAtMostOnce(o.g, events[1..], k);
      var t := RunFixed(o.g, events[1..]).value;
      assert multiset(o.effects + t.effects) == multiset(o.effects) + multiset(t.effects);
    }
  }
}

=== FILE: hash_params.dfy ===
/**
 * Deep-link parameters read from the URL fragment.
 *
 * The fragment (everything after `#`) is scanned left to right with the
 * global regular expression `&?([a-z])=([a-zA-Z0-9_-]*)`: each match is taken
 * where the previous one ended, text that does not match is skipped one
 * character at a time, and every match with a non-empty value is written
 * into the result object, so a later occurrence of a name overwrites an
 * earlier one. Reading `window.location` is replaced by a `hash` parameter.
 */
module HashParams {
  import opened Wrappers

  /** `[a-z]`: the character class of a parameter name. */
  predicate IsKeyChar(c: char) {
    'a' <= c <= 'z'
  }

  /** `[a-zA-Z0-9_-]`: the character class of a parameter value. */
  predicate IsValueChar(c: char) {
    ('a' <= c <= 'z') || ('A' <= c <= 'Z') || ('0' <= c <= '9') || c == '_' || c == '-'
  }

  predicate AllValueChars(v: string) {
    forall j :: 0 <= j < |v| ==> IsValueChar(v[j])
  }

  /** One match of the expression. It covers `start .. end`; the name
      character sits at `keyAt` (one past `start` when an `&` was consumed),
      the value ends the match. */
  datatype Pair = Pair(start: nat, keyAt: nat, key: char, value: string, end: nat)

  /** The spec-level reading of a parameter: the name `k` at position `i`,
      immediately followed by `=` and then by `v`, the longest run of value
      characters that starts there. */
  ghost predicate PairAt(t: string, i: nat, k: char, v: string) {
    && i + 2 + |v| <= |t|
    && IsKeyChar(k)
    && t[i] == k
    && t[i + 1] == '='
    && t[i + 2..i + 2 + |v|] == v
    && AllValueChars(v)
    && (i + 2 + |v| == |t| || !IsValueChar(t[i + 2 + |v|]))
  }

  /** Some parameter starts at position `i`. */
  ghost predicate PairFrom(t: string, i: nat) {
    exists k, v :: PairAt(t, i, k, v)
  }

  /** `location.hash.substr(1)`: the leading `#` is dropped, whatever it is;
      an empty hash stays empty. */
  function Fragment(hash: string): (f: string)
    ensures |hash| == 0 ==> f == ""
    ensures |hash| > 0 ==> hash == [hash[0]] + f
  {
    if |hash| == 0 then "" else hash[1..]
  }

  /** The greedy `[a-zA-Z0-9_-]*` starting at `i`. */
  function ValueRun(t: string, i: nat): (v: string)
    requires i <= |t|
    ensures i + |v| <= |t| && t[i..i + |v|] == v
    ensures AllValueChars(v)
    ensures i + |v| == |t| || !IsValueChar(t[i + |v|])
    decreases |t| - i
  {
    if i < |t| && IsValueChar(t[i]) then [t[i]] + ValueRun(t, i + 1) else []
  }

  /** The expression tried at position `p` only: `&?` is greedy, and when the
      `&` branch fails the match without it is tried at the same position. */
  function MatchAt(t: string, p: nat): (r: Option<Pair>)
    ensures r.Some? ==> r.value.start == p && p + 2 <= r.value.end <= |t|
    ensures r.Some? ==> r.value.keyAt == p || (r.value.keyAt == p + 1 && t[p] == '&')
    ensures r.Some? ==> r.value.end == r.value.keyAt + 2 + |r.value.value|
    ensures r.Some? ==> PairAt(t, r.value.keyAt, r.value.key, r.value.value)
  {
    if p + 2 < |t| && t[p] == '&' && IsKeyChar(t[p + 1]) && t[p + 2] == '=' then
      var v := ValueRun(t, p + 3);
      Some(Pair(p, p + 1, t[p + 1], v, p + 3 + |v|))
    else if p + 1 < |t| && IsKeyChar(t[p]) && t[p + 1] == '=' then
      var v := ValueRun(t, p + 2);
      Some(Pair(p, p, t[p], v, p + 2 + |v|))
    else
      None
  }

  /** The expression fails at `p` exactly when neither a pair starts at `p`
      nor an `&` at `p` is followed by a pair. */
  lemma MatchAtNone(t: string, p: nat)
    ensures MatchAt(t, p).None? <==> !PairFrom(t, p) && !(p < |t| && t[p] == '&' && PairFrom(t, p + 1))
  {
    if p + 1 < |t| && IsKeyChar(t[p]) && t[p + 1] == '=' {
      assert PairAt(t, p, t[p], ValueRun(t, p + 2));
    }
    if p + 2 < |t| && t[p] == '&' && IsKeyChar(t[p + 1]) && t[p + 2] == '=' {
      assert PairAt(t, p + 1, t[p + 1], ValueRun(t, p + 3));
    }
  }

  /** The successive `exec` calls of the global expression, starting the
      search at `p`: after a match the search resumes where it ended,
      otherwise one character further on. */
  function Matches(t: string, p: nat): (ms: seq<Pair>)
    ensures forall j :: 0 <= j < |ms| ==> p <= ms[j].start
    decreases |t| - p
  {
    if p >= |t| then []
    else
      match MatchAt(t, p)
      case Some(m) => [m] + Matches(t, m.end)
      case None => Matches(t, p + 1)
  }

  /** The result object built from the matches in order: a match with an
      empty value is dropped (`match[2] || undefined` is falsy), any other
      one sets its key, overwriting an earlier value. */
  function Collect(ms: seq<Pair>): map<char, string>
  {
    if |ms| == 0 then map[]
    else
      var r := Collect(ms[..|ms| - 1]);
      var m := ms[|ms| - 1];
      if |m.value| > 0 then r[m.key := m.value] else r
  }

  /** `getHashmarkParameters`, with the hash passed in. */
  function Parameters(hash: string): map<char, string>
  {
    Collect(Matches(Fragment(hash), 0))
  }

  /** Position `q` lies inside one of the matches. */
  ghost predicate Covered(ms: seq<Pair>, q: int) {
    exists j :: 0 <= j < |ms| && ms[j].start <= q < ms[j].end
  }

  /** A match of `ms` counts for key `k` when it carries a non-empty value. */
  ghost predicate Sets(ms: seq<Pair>, j: int, k: char) {
    0 <= j < |ms| && ms[j].key == k && |ms[j].value| > 0
  }

  /** Match `j` is the last one that sets key `k`. */
  ghost predicate LastSetter(ms: seq<Pair>, j: int, k: char) {
    Sets(ms, j, k) && forall j' :: j < j' < |ms| ==> !Sets(ms, j', k)
  }

  /** Each match ends before the next one starts. */
  ghost predicate Ordered(ms: seq<Pair>) {
    forall i, j :: 0 <= i < j < |ms| ==> ms[i].end <= ms[j].start
  }

  /** Every element of the scan is what the expression yields at its own
      start position. */
  lemma {:induction false} MatchesAreMatches(t: string, p: nat)
    ensures forall j :: 0 <= j < |Matches(t, p)| ==>
      MatchAt(t, Matches(t, p)[j].start) == Some(Matches(t, p)[j])
    decreases |t| - p
  {
    if p < |t| {
      match MatchAt(t, p)
      case Some(m) =>
        var rest := Matches(t, m.end);
        assert Matches(t, p) == [m] + rest;
        MatchesAreMatches(t, m.end);
        forall j | 0 <= j < |[m] + rest|
          ensures MatchAt(t, ([m] + rest)[j].start) == Some(([m] + rest)[j])
        {
          if j > 0 {
            assert ([m] + rest)[j] == rest[j - 1];
          }
        }
      case None =>
        assert Matches(t, p) == Matches(t, p + 1);
        MatchesAreMatches(t, p + 1);
    }
  }

  /** Matches are taken left to right and never overlap. */
  lemma {:induction false} MatchesOrdered(t: string, p: nat)
    ensures Ordered(Matches(t, p))
    decreases |t| - p
  {
    if p < |t| {
      match MatchAt(t, p)
      case Some(m) =>
        var rest := Matches(t, m.end);
        assert Matches(t, p) == [m] + rest;
        MatchesOrdered(t, m.end);
        OrderedCons(m, rest);
      case None =>
        assert Matches(t, p) == Matches(t, p + 1);
        MatchesOrdered(t, p + 1);
    }
  }

  /** Prepending a match that ends before every later one starts keeps the
      sequence ordered. */
  lemma OrderedCons(m: Pair, rest: seq<Pair>)
    requires forall j :: 0 <= j < |rest| ==> m.end <= rest[j].start
    requires Ordered(rest)
    ensures Ordered([m] + rest)
  {
    var ms := [m] + rest;
    forall i, j | 0 <= i < j < |ms|
      ensures ms[i].end <= ms[j].start
    {
      assert ms[j] == rest[j - 1];
      if i > 0 {
        assert ms[i] == rest[i - 1];
      }
    }
  }

  /** Text between matches is skipped only because no match starts there:
      every position from `p` on that no match covers is one where the
      expression fails. */
  lemma {:induction false} MatchesSkipOnlyNonMatching(t: string, p: nat)
    ensures var ms := Matches(t, p);
      forall q :: p <= q < |t| && !Covered(ms, q) ==> MatchAt(t, q) == None
    decreases |t| - p
  {
    if p < |t| {
      match MatchAt(t, p)
      case Some(m) =>
        MatchesSkipOnlyNonMatching(t, m.end);
        var rest := Matches(t, m.end);
        assert Matches(t, p) == [m] + rest;
        forall q | p <= q < |t| && !Covered([m] + rest, q)
          ensures MatchAt(t, q) == None
        {
          UncoveredAfterFirst(m, rest, q);
        }
      case None =>
        assert Matches(t, p) == Matches(t, p + 1);
        MatchesSkipOnlyNonMatching(t, p + 1);
    }
  }

  /** A position no match of `[m] + rest` covers, at or after `m`'s start,
      lies beyond `m` and is not covered by `rest`. */
  lemma UncoveredAfterFirst(m: Pair, rest: seq<Pair>, q: int)
    requires m.start <= q && !Covered([m] + rest, q)
    ensures m.end <= q && !Covered(rest, q)
  {
    var ms := [m] + rest;
    assert ms[0] == m;
    forall j | 0 <= j < |rest|
      ensures !(rest[j].start <= q < rest[j].end)
    {
      assert ms[j + 1] == rest[j];
    }
  }

  /** Every key of the collected object comes from a match that carried
      exactly that value, and the value is non-empty. */
  lemma {:induction false} CollectFromMatches(ms: seq<Pair>)
    ensures forall k :: k in Collect(ms) ==>
      exists j :: Sets(ms, j, k) && ms[j].value == Collect(ms)[k]
  {
    if |ms| > 0 {
      var init := ms[..|ms| - 1];
      CollectFromMatches(init);
      forall k | k in Collect(ms)
        ensures exists j :: Sets(ms, j, k) && ms[j].value == Collect(ms)[k]
      {
        var m := ms[|ms| - 1];
        if |m.value| > 0 && k == m.key {
          assert Sets(ms, |ms| - 1, k);
        } else {
          assert k in Collect(init) && Collect(ms)[k] == Collect(init)[k];
          var j :| Sets(init, j, k) && init[j].value == Collect(init)[k];
          assert ms[j] == init[j];
          assert Sets(ms, j, k);
        }
      }
    }
  }

  /** When a key is set more than once, the last setting match wins. */
  lemma {:induction false} CollectLastWins(ms: seq<Pair>, j: nat, k: char)
    requires LastSetter(ms, j, k)
    ensures k in Collect(ms) && Collect(ms)[k] == ms[j].value
  {
    var init := ms[..|ms| - 1];
    var m := ms[|ms| - 1];
    if j < |ms| - 1 {
      assert !Sets(ms, |ms| - 1, k);
      assert init[j] == ms[j];
      forall j' | j < j' < |init|
        ensures !Sets(init, j', k)
      {
        assert init[j'] == ms[j'];
        assert !Sets(ms, j', k);
      }
      CollectLastWins(init, j, k);
    }
  }

  /** A key that some match sets is present. */
  lemma {:induction false} CollectSetKeyPresent(ms: seq<Pair>, j: nat, k: char)
    requires Sets(ms, j, k)
    ensures k in Collect(ms)
  {
    var init := ms[..|ms| - 1];
    if j < |ms| - 1 {
      assert init[j] == ms[j];
      CollectSetKeyPresent(init, j, k);
    }
  }

  /** Each parameter in the result is a single lowercase letter that stood
      immediately before `=` in the fragment, and its value is the
      non-empty, maximal run of `[a-zA-Z0-9_-]` after that `=`. */
  lemma ParametersSound(hash: string)
    ensures var t := Fragment(hash); var r := Parameters(hash);
      forall k :: k in r ==> IsKeyChar(k) && |r[k]| > 0 && exists i :: PairAt(t, i, k, r[k])
  {
    var t := Fragment(hash);
    var ms := Matches(t, 0);
    CollectFromMatches(ms);
    MatchesAreMatches(t, 0);
    forall k | k in Parameters(hash)
      ensures IsKeyChar(k) && |Parameters(hash)[k]| > 0 && exists i :: PairAt(t, i, k, Parameters(hash)[k])
    {
      var j :| Sets(ms, j, k) && ms[j].value == Collect(ms)[k];
      assert MatchAt(t, ms[j].start) == Some(ms[j]);
      assert PairAt(t, ms[j].keyAt, k, ms[j].value);
    }
  }

  /** The value of a key is the one of the last match that sets it. */
  lemma ParametersLastWins(hash: string)
    ensures var ms := Matches(Fragment(hash), 0); var r := Parameters(hash);
      forall j, k :: LastSetter(ms, j, k) ==> k in r && r[k] == ms[j].value
  {
    var ms := Matches(Fragment(hash), 0);
    forall j, k | LastSetter(ms, j, k)
      ensures k in Collect(ms) && Collect(ms)[k] == ms[j].value
    {
      CollectLastWins(ms, j, k);
    }
  }

  /** A key is present exactly when some match sets it: a name seen only
      with an empty value is omitted. */
  lemma ParametersKeys(hash: string)
    ensures var ms := Matches(Fragment(hash), 0); var r := Parameters(hash);
      forall k :: k in r <==> exists j :: Sets(ms, j, k)
  {
    var ms := Matches(Fragment(hash), 0);
    assert Parameters(hash) == Collect(ms);
    CollectFromMatches(ms);
    forall k
      ensures k in Collect(ms) <==> exists j :: Sets(ms, j, k)
    {
      if k in Collect(ms) {
        var j :| Sets(ms, j, k) && ms[j].value == Collect(ms)[k];
      } else {
        forall j | 0 <= j < |ms|
          ensures !Sets(ms, j, k)
        {
          if Sets(ms, j, k) {
            CollectSetKeyPresent(ms, j, k);
          }
        }
      }
    }
  }

  /** A fragment in which no lowercase letter is directly followed by `=`
      yields the empty object. */
  lemma ParametersEmpty(hash: string)
    requires var t := Fragment(hash);
      forall i :: 0 <= i < |t| - 1 ==> !(IsKeyChar(t[i]) && t[i + 1] == '=')
    ensures Parameters(hash) == map[]
  {
    NoPairNoMatch(Fragment(hash), 0);
  }

  /** Without a `letter=` anywhere from `p` on, the scan finds nothing. */
  lemma {:induction false} NoPairNoMatch(t: string, p: nat)
    requires forall i :: 0 <= i < |t| - 1 ==> !(IsKeyChar(t[i]) && t[i + 1] == '=')
    ensures Matches(t, p) == []
    decreases |t| - p
  {
    if p < |t| {
      assert MatchAt(t, p) == None;
      NoPairNoMatch(t, p + 1);
    }
  }
}

=== FILE: items.dfy ===
/**
 * The gallery items: the state every item carries, the type tags the
 * registry dispatches on, and the constructors and element guards of the
 * image and video items. The YouTube item's own logic lives in `Youtube`.
 */
module Items {
  import opened Wrappers
  import opened Options
  import Youtube

  /** The key the registry gives an element. */
  type Key = string

  /** A DOM node a load can produce. `ErrorMessage` is the paragraph that
      reports a failed load; `Media` is anything a media load resolves with. */
  datatype Node = Media(id: nat) | ErrorMessage

  /** What an item's `data` holds once a load has settled: a node, or a
      string of HTML. */
  datatype Data = Markup(node: Node) | Html(text: string)

  /** The HTML string stored when a load fails. */
  const ERROR_HTML := "<p class=\"lightbox__message lightbox__message_error\">Impossible de charger le contenu ...</p>"

  /** The image item's constructor options; `None` is an absent option. */
  datatype ImageOptions = ImageOptions(src: Option<string>, width: Option<int>, height: Option<int>, alt: Option<string>)

  datatype ImageConfig = ImageConfig(src: Option<string>, alt: string, width: int, height: int)

  const IMAGE_NO_SIZE := -1

  /** The image constructor: absent sizes take -1, an absent text ''. */
  function NewImage(o: ImageOptions): (c: ImageConfig)
    ensures c.src == o.src
    ensures o.width.None? ==> c.width == IMAGE_NO_SIZE
    ensures o.height.None? ==> c.height == IMAGE_NO_SIZE
    ensures o.width.Some? ==> c.width == o.width.value
    ensures o.height.Some? ==> c.height == o.height.value
    ensures o.alt.None? ==> c.alt == ""
    ensures o.alt.Some? ==> c.alt == o.alt.value
  {
    ImageConfig(o.src, o.alt.GetOr(""), o.width.GetOr(IMAGE_NO_SIZE), o.height.GetOr(IMAGE_NO_SIZE))
  }

  /** The `img` element `load` builds. */
  datatype ImageElement = ImageElement(src: Option<string>, alt: string, width: Option<int>, height: Option<int>)

  function ImageOf(c: ImageConfig): (e: ImageElement)
    ensures e.src == c.src && e.alt == c.alt
    ensures e.width.Some? <==> c.width > 0
    ensures e.height.Some? <==> c.height > 0
    ensures e.width.Some? ==> e.width.value == c.width
    ensures e.height.Some? ==> e.height.value == c.height
  {
    ImageElement(c.src, c.alt, Dimension(c.width), Dimension(c.height))
  }

  /** An image constructed without sizes keeps its natural size: the
      default of -1 never reaches the element. */
  lemma ImageDefaultSizeNotApplied(o: ImageOptions)
    ensures o.width.None? ==> ImageOf(NewImage(o)).width.None?
    ensures o.height.None? ==> ImageOf(NewImage(o)).height.None?
    ensures o.width.Some? ==> (ImageOf(NewImage(o)).width.Some? <==> o.width.value > 0)
    ensures o.height.Some? ==> (ImageOf(NewImage(o)).height.Some? <==> o.height.value > 0)
  {
  }

  /** The video item's constructor options. */
  datatype VideoOptions = VideoOptions(src: Option<string>, width: Option<int>, height: Option<int>, autoplay: JsValue, controls: JsValue)

  datatype VideoConfig = VideoConfig(src: Option<string>, autoplay: bool, controls: bool, width: int, height: int)

  const VIDEO_WIDTH := 854
  const VIDEO_HEIGHT := 480

  /** The video constructor: sizes default to 854 by 480; `autoplay` and
      `controls` hold only when the option is exactly `true`, after the
      defaults `false` and `true`. */
  function NewVideo(o: VideoOptions): (c: VideoConfig)
    ensures c.src == o.src
    ensures c.autoplay <==> o.autoplay == Bool(true)
    ensures c.controls <==> o.controls == Bool(true) || o.controls == Undefined
    ensures c.width == (if o.width.Some? then o.width.value else VIDEO_WIDTH)
    ensures c.height == (if o.height.Some? then o.height.value else VIDEO_HEIGHT)
  {
    VideoConfig(o.src, StrictFlag(o.autoplay, false), StrictFlag(o.controls, true),
      o.width.GetOr(VIDEO_WIDTH), o.height.GetOr(VIDEO_HEIGHT))
  }

  /** The `video` element `load` builds, with its one `source` child. */
  datatype VideoElement = VideoElement(autoplay: bool, controls: bool, width: Option<int>, height: Option<int>, source: Option<string>)

  function VideoOf(c: VideoConfig): (e: VideoElement)
    ensures e.autoplay == c.autoplay && e.controls == c.controls && e.source == c.src
    ensures e.width.Some? <==> c.width > 0
    ensures e.height.Some? <==> c.height > 0
    ensures e.width.Some? ==> e.width.value == c.width
    ensures e.height.Some? ==> e.height.value == c.height
  {
    VideoElement(c.autoplay, c.controls, Dimension(c.width), Dimension(c.height), c.src)
  }

  /** A video constructed without sizes is shown at 854 by 480. */
  lemma VideoDefaultSize(o: VideoOptions)
    requires o.width.None? && o.height.None?
    ensures VideoOf(NewVideo(o)).width == Some(VIDEO_WIDTH)
    ensures VideoOf(NewVideo(o)).height == Some(VIDEO_HEIGHT)
  {
  }

  /** The class of an item, with its constructor's fields. */
  datatype Kind =
    | Default
    | Image(image: ImageConfig)
    | Video(video: VideoConfig)
    | YoutubeVideo(youtube: Youtube.YoutubeConfig)

  const DEFAULT_TAG := "default"
  const IMAGE_TAG := "image"
  const VIDEO_TAG := "video"
  const YOUTUBE_TAG := "youtube"

  /** The `TYPE_NAME` of each class. */
  function TypeName(k: Kind): string
  {
    match k
    case Default => DEFAULT_TAG
    case Image(_) => IMAGE_TAG
    case Video(_) => VIDEO_TAG
    case YoutubeVideo(_) => YOUTUBE_TAG
  }

  /** Two items share a type tag exactly when they are of the same class. */
  lemma TypeNamesDistinct(a: Kind, b: Kind)
    ensures TypeName(a) == TypeName(b) <==>
      (a.Default? && b.Default?) || (a.Image? && b.Image?) || (a.Video? && b.Video?) || (a.YoutubeVideo? && b.YoutubeVideo?)
  {
  }

  /** The state an item carries. `data` is `null` until a load settles.
      The base class the gallery builds its items from sets only `loaded`
      and `data`; the `loading` and `failed` flags come from the variant in
      src/LightboxItem/LightboxItem.js (lines 11-12), and the model keeps
      them false. */
  datatype Item = Item(key: Key, kind: Kind, loaded: bool, loading: bool, failed: bool, data: Option<Data>)

  /** The base constructor shared by every class. */
  function NewItem(key: Key, kind: Kind): (it: Item)
    ensures it.key == key && it.kind == kind
    ensures !it.loaded && !it.loading && !it.failed && it.data == None
  {
    Item(key, kind, false, false, false, None)
  }
}

=== FILE: options.dfy ===
/**
 * The JavaScript values that reach the item and gallery constructors through
 * their option objects, and the two normalisations those constructors apply
 * to them: destructuring defaults and strict comparison with `true`.
 */
module Options {
  import opened Wrappers

  /** The kinds of JavaScript value an option can hold, as far as the
      constructors tell them apart. `Func` stands for any callable. */
  datatype JsValue = Undefined | Null | Bool(b: bool) | Num(n: int) | Str(s: string) | Func(id: nat)

  /** A destructuring default (`{ rel = true } = options`) replaces only
      `undefined`; an explicit `null` is kept. */
  function WithDefault(v: JsValue, default: JsValue): (r: JsValue)
    ensures v != Undefined ==> r == v
    ensures v == Undefined ==> r == default
  {
    if v.Undefined? then default else v
  }

  /** `option === true` after the default has been applied. */
  function StrictFlag(v: JsValue, default: bool): (r: bool)
    ensures r <==> (v == Bool(true) || (v == Undefined && default))
  {
    WithDefault(v, Bool(default)) == Bool(true)
  }

  /** `option === true ? 1 : 0` after the default has been applied. */
  function Bit(v: JsValue, default: bool): (r: int)
    ensures r == 0 || r == 1
    ensures r == 1 <==> StrictFlag(v, default)
  {
    if StrictFlag(v, default) then 1 else 0
  }

  /** `typeof option === "function"`. */
  predicate IsCallable(v: JsValue) {
    v.Func?
  }

  /** The dimension guard of every `load`: a width or height attribute is
      set on the created element only when the configured value is strictly
      positive; otherwise the element keeps its natural size. */
  function Dimension(v: int): (r: Option<int>)
    ensures r.Some? <==> v > 0
    ensures r.Some? ==> r.value == v
  {
    if v > 0 then Some(v) else None
  }
}

=== FILE: text.dfy ===
/**
 * String helpers used to state what the embed URL contains: decimal
 * rendering of integers as template literals produce it, its inverse, and
 * splitting on a separator character with its inverse, joining.
 */
module Text {
  import opened Wrappers

  predicate IsDigit(c: char) {
    '0' <= c <= '9'
  }

  function DigitChar(d: nat): (c: char)
    requires d < 10
    ensures IsDigit(c)
  {
    "0123456789"[d]
  }

  function DigitValue(c: char): (d: nat)
    requires IsDigit(c)
    ensures d < 10 && DigitChar(d) == c
  {
    (c as int - '0' as int) as nat
  }

  /** Decimal digits of `n`, most significant first, without leading zeros. */
  function NatToString(n: nat): (s: string)
    ensures |s| > 0 && forall j :: 0 <= j < |s| ==> IsDigit(s[j])
  {
    if n < 10 then [DigitChar(n)] else NatToString(n / 10) + [DigitChar(n % 10)]
  }

  /** `${n}` for an integer `n` below 10^21 in magnitude: a minus sign for
      negative numbers, then the decimal digits. */
  function IntToString(n: int): string
  {
    if n < 0 then "-" + NatToString(-n) else NatToString(n)
  }

  /** The value of a non-empty run of decimal digits. */
  function DigitsValue(s: string): nat
    requires |s| > 0 && forall j :: 0 <= j < |s| ==> IsDigit(s[j])
  {
    if |s| == 1 then DigitValue(s[0])
    else 10 * DigitsValue(s[..|s| - 1]) + DigitValue(s[|s| - 1])
  }

  /** Reads an optionally negative decimal integer that fills all of `s`. */
  function ParseInt(s: string): Option<int>
  {
    if |s| > 0 && s[0] == '-' then
      (if |s| > 1 && forall j :: 1 <= j < |s| ==> IsDigit(s[j]) then Some(-(DigitsValue(s[1..]) as int)) else None)
    else if |s| > 0 && forall j :: 0 <= j < |s| ==> IsDigit(s[j]) then Some(DigitsValue(s))
    else None
  }

  lemma {:induction false} DigitsValueOfNat(n: nat)
    ensures DigitsValue(NatToString(n)) == n
  {
    if n >= 10 {
      var s := NatToString(n);
      assert s[..|s| - 1] == NatToString(n / 10);
      DigitsValueOfNat(n / 10);
      DigitValueOfChar(n % 10);
    } else {
      DigitValueOfChar(n);
    }
  }

  lemma DigitValueOfChar(d: nat)
    requires d < 10
    ensures DigitValue(DigitChar(d)) == d
  {
  }

  /** Rendering an integer and reading it back gives the integer. */
  lemma IntRoundTrip(n: int)
    ensures ParseInt(IntToString(n)) == Some(n)
    ensures forall j :: 0 <= j < |IntToString(n)| ==> IntToString(n)[j] == '-' || IsDigit(IntToString(n)[j])
  {
    var s := IntToString(n);
    if n < 0 {
      var d := NatToString(-n);
      assert s == "-" + d;
      DigitsValueOfNat(-n);
      ParseNegative(d);
      forall j | 0 <= j < |s|
        ensures s[j] == '-' || IsDigit(s[j])
      {
        if j > 0 {
          assert s[j] == d[j - 1];
        }
      }
    } else {
      assert s == NatToString(n);
      DigitsValueOfNat(n);
      ParseUnsigned(s);
    }
  }

  /** A run of digits reads as its value. */
  lemma ParseUnsigned(d: string)
    requires |d| > 0 && forall j :: 0 <= j < |d| ==> IsDigit(d[j])
    ensures ParseInt(d) == Some(DigitsValue(d))
  {
    assert IsDigit(d[0]);
  }

  /** A minus sign followed by a run of digits reads as the negated value. */
  lemma ParseNegative(d: string)
    requires |d| > 0 && forall j :: 0 <= j < |d| ==> IsDigit(d[j])
    ensures ParseInt("-" + d) == Some(-(DigitsValue(d) as int))
  {
    var s := "-" + d;
    assert |s| > 1 && s[0] == '-';
    assert s[1..] == d;
    assert forall j :: 1 <= j < |s| ==> s[j] == d[j - 1];
    assert ParseInt(s) == Some(-(DigitsValue(s[1..]) as int));
  }

  /** The first position of `c` in `s`. */
  function IndexOf(s: string, c: char): (r: Option<nat>)
    ensures r.Some? ==> r.value < |s| && s[r.value] == c && forall j :: 0 <= j < r.value ==> s[j] != c
    ensures r.None? ==> forall j :: 0 <= j < |s| ==> s[j] != c
  {
    if |s| == 0 then None
    else if s[0] == c then Some(0)
    else match IndexOf(s[1..], c)
      case None => None
      case Some(i) => Some(i + 1)
  }

  /** `s.split(sep)` for a one-character separator. */
  function Split(s: string, sep: char): (parts: seq<string>)
    ensures |parts| > 0
    decreases |s|
  {
    match IndexOf(s, sep)
    case None => [s]
    case Some(i) => [s[..i]] + Split(s[i + 1..], sep)
  }

  /** `parts.join(sep)`. */
  function Join(parts: seq<string>, sep: char): string
    requires |parts| > 0
  {
    if |parts| == 1 then parts[0] else parts[0] + [sep] + Join(parts[1..], sep)
  }

  /** `c` does not occur in `s`. */
  predicate Free(s: string, c: char) {
    forall j :: 0 <= j < |s| ==> s[j] != c
  }

  lemma IndexOfAfterFree(p: string, c: char, rest: string)
    requires Free(p, c)
    ensures IndexOf(p + [c] + rest, c) == Some(|p|)
  {
    var s := p + [c] + rest;
    assert s[|p|] == c;
    assert forall j :: 0 <= j < |p| ==> s[j] == p[j];
  }

  /** Splitting at the first separator, when it follows a separator-free
      prefix, cuts off exactly that prefix. */
  lemma SplitAfterFree(p: string, c: char, rest: string)
    requires Free(p, c)
    ensures Split(p + [c] + rest, c) == [p] + Split(rest, c)
  {
    var s := p + [c] + rest;
    IndexOfAfterFree(p, c, rest);
    assert s[..|p|] == p;
    assert s[|p| + 1..] == rest;
  }

  /** Splitting a join of separator-free parts gives the parts back. */
  lemma {:induction false} SplitJoin(parts: seq<string>, sep: char)
    requires |parts| > 0 && forall k :: 0 <= k < |parts| ==> Free(parts[k], sep)
    ensures Split(Join(parts, sep), sep) == parts
    decreases |parts|
  {
    if |parts| > 1 {
      var head, tl := parts[0], parts[1..];
      var tail := Join(tl, sep);
      assert Free(head, sep);
      assert Join(parts, sep) == head + [sep] + tail;
      SplitAfterFree(head, sep, tail);
      assert forall k :: 0 <= k < |tl| ==> tl[k] == parts[k + 1];
      SplitJoin(tl, sep);
      assert parts == [head] + tl;
    }
  }
}

=== FILE: wrappers.dfy ===
/** The optional-value and success-or-error datatypes shared by every module
    of the model. */
module Wrappers {

  /** A value that may be absent: JavaScript's `undefined`/`null` become `None`. */
  datatype Option<+T> = None | Some(value: T) {

    /** The value, or `default` when absent (a destructuring default). */
    function GetOr(default: T): T {
      match this
      case Some(v) => v
      case None => default
    }
  }

  /** The outcome of an operation that can throw: `Err` carries what was thrown. */
  datatype Result<+T, +E> = Ok(value: T) | Err(error: E)
}

=== FILE: youtube.dfy ===
/**
 * The YouTube item. Three classes carry the same constructor (id detection
 * and flag normalisation); two of them build an iframe in `load`, the third
 * hands the same values to the embedded player and guards its
 * `beforeClose`/`beforeChange` hooks on the player having been created.
 */
module Youtube {
  import opened Wrappers
  import opened Options
  import opened Text
  import YoutubeId

  /** The constructor's option object. Numeric options are already integers;
      `None` stands for an absent option, which takes the default. */
  datatype YoutubeOptions = YoutubeOptions(
    src: JsValue,
    width: Option<int>,
    height: Option<int>,
    rel: JsValue,
    autoplay: JsValue,
    controls: JsValue,
    showinfo: JsValue,
    start: Option<int>,
    allowFullscreen: JsValue)

  /** The fields the constructor sets. The four player flags are 0 or 1. */
  datatype YoutubeConfig = YoutubeConfig(
    videoId: string,
    rel: int,
    autoplay: int,
    controls: int,
    showinfo: int,
    start: int,
    allowFullscreen: bool,
    width: int,
    height: int)

  const DEFAULT_WIDTH := 854
  const DEFAULT_HEIGHT := 480

  /** The detected video id, or the raw source when the expression finds none. */
  function VideoId(src: string): string
  {
    match YoutubeId.ExtractId(src)
    case Some(id) => id
    case None => src
  }

  /** What the constructor throws: `src.match` on a source that is not a
      string, an absent one included, is a type error. */
  datatype ConstructorError = SourceNotString

  /** The constructor. It throws exactly when the source is not a string. */
  function NewYoutube(o: YoutubeOptions): (r: Result<YoutubeConfig, ConstructorError>)
    ensures r.Ok? <==> o.src.Str?
    ensures r.Err? ==> r.error == SourceNotString
    ensures r.Ok? ==> var c := r.value;
      && c.rel in {0, 1} && (c.rel == 1 <==> o.rel == Bool(true) || o.rel == Undefined)
      && c.autoplay in {0, 1} && (c.autoplay == 1 <==> o.autoplay == Bool(true))
      && c.controls in {0, 1} && (c.controls == 1 <==> o.controls == Bool(true) || o.controls == Undefined)
      && c.showinfo in {0, 1} && (c.showinfo == 1 <==> o.showinfo == Bool(true) || o.showinfo == Undefined)
      && (c.allowFullscreen <==> o.allowFullscreen == Bool(true) || o.allowFullscreen == Undefined)
      && c.videoId == VideoId(o.src.s)
      && c.start == (if o.start.Some? then o.start.value else 0)
      && c.width == (if o.width.Some? then o.width.value else DEFAULT_WIDTH)
      && c.height == (if o.height.Some? then o.height.value else DEFAULT_HEIGHT)
  {
    if !o.src.Str? then Err(SourceNotString)
    else
    Ok(YoutubeConfig(
      VideoId(o.src.s),
      Bit(o.rel, true),
      Bit(o.autoplay, false),
      Bit(o.controls, true),
      Bit(o.showinfo, true),
      o.start.GetOr(0),
      StrictFlag(o.allowFullscreen, true),
      o.width.GetOr(DEFAULT_WIDTH),
      o.height.GetOr(DEFAULT_HEIGHT)))
  }

  /** The video id is the eleven-character capture of the leftmost match
      when the expression matches somewhere in the source, and the source
      itself when it matches nowhere. */
  lemma VideoIdSpec(src: string)
    ensures var id := VideoId(src);
      || (&& |id| == YoutubeId.ID_LENGTH
          && (forall j :: 0 <= j < |id| ==> YoutubeId.IsIdChar(id[j]))
          && exists p: nat, q: nat ::
            && YoutubeId.MatchesAt(src, p, q) && id == src[q..q + YoutubeId.ID_LENGTH]
            && forall p': nat, q': nat :: YoutubeId.MatchesAt(src, p', q') ==> p <= p')
      || (id == src && forall p: nat, q: nat :: !YoutubeId.MatchesAt(src, p, q))
  {
    YoutubeId.ExtractIdNoneIffNoMatch(src);
  }

  const EMBED_PREFIX := "https://www.youtube.com/embed/"

  /** The iframe source built by `load`. */
  function EmbedUrl(c: YoutubeConfig): string
  {
    EMBED_PREFIX + c.videoId
      + "?autoplay=" + IntToString(c.autoplay)
      + "&rel=" + IntToString(c.rel)
      + "&controls=" + IntToString(c.controls)
      + "&showinfo=" + IntToString(c.showinfo)
      + "&start=" + IntToString(c.start)
  }

  /** The query parameters of the embed URL, in the order they are written. */
  datatype Embed = Embed(videoId: string, autoplay: int, rel: int, controls: int, showinfo: int, start: int)

  const PARAMETER_NAMES: seq<string> := ["autoplay", "rel", "controls", "showinfo", "start"]

  /** The values of the five parameters, in the order they are written. */
  function ParameterValues(c: YoutubeConfig): seq<int>
  {
    [c.autoplay, c.rel, c.controls, c.showinfo, c.start]
  }

  /** One `name=value` parameter. */
  function Param(name: string, n: int): string
  {
    name + "=" + IntToString(n)
  }

  /** The five parameters as `name=value` strings. */
  function Params(v: seq<int>): (f: seq<string>)
    requires |v| == |PARAMETER_NAMES|
    ensures |f| == |PARAMETER_NAMES|
  {
    seq(5, k requires 0 <= k < 5 => Param(PARAMETER_NAMES[k], v[k]))
  }

  /** Reads `name=<integer>`. */
  function Field(f: string, name: string): Option<int>
  {
    var head := name + "=";
    if |head| <= |f| && f[..|head|] == head then ParseInt(f[|head|..]) else None
  }

  /** Reads the five fields, each under its name, in the fixed order. */
  function ReadFields(fields: seq<string>): Option<seq<int>>
  {
    if |fields| == |PARAMETER_NAMES| && forall k :: 0 <= k < 5 ==> Field(fields[k], PARAMETER_NAMES[k]).Some? then
      Some(seq(5, k requires 0 <= k < 5 && Field(fields[k], PARAMETER_NAMES[k]).Some? =>
        Field(fields[k], PARAMETER_NAMES[k]).value))
    else None
  }

  /** Reads an embed URL back: the fixed prefix, the video id up to the
      first `?`, then exactly the five parameters, `&`-separated. */
  function ParseEmbedUrl(u: string): Option<Embed>
  {
    if |u| < |EMBED_PREFIX| || u[..|EMBED_PREFIX|] != EMBED_PREFIX then None
    else
      var rest := u[|EMBED_PREFIX|..];
      match IndexOf(rest, '?')
      case None => None
      case Some(i) =>
        match ReadFields(Split(rest[i + 1..], '&'))
        case None => None
        case Some(v) => Some(Embed(rest[..i], v[0], v[1], v[2], v[3], v[4]))
  }

  lemma EmbedUrlShape(c: YoutubeConfig)
    ensures EmbedUrl(c) == EMBED_PREFIX + c.videoId + "?" + Join(Params(ParameterValues(c)), '&')
  {
    QueryShape(EMBED_PREFIX + c.videoId, IntToString(c.autoplay), IntToString(c.rel),
      IntToString(c.controls), IntToString(c.showinfo), IntToString(c.start));
    ParamsFive(ParameterValues(c));
  }

  /** The five parameters, spelled out. */
  lemma ParamsFive(v: seq<int>)
    requires |v| == |PARAMETER_NAMES|
    ensures Params(v) == ["autoplay=" + IntToString(v[0]), "rel=" + IntToString(v[1]),
      "controls=" + IntToString(v[2]), "showinfo=" + IntToString(v[3]), "start=" + IntToString(v[4])]
  {
    var f := Params(v);
    assert f[0] == "autoplay=" + IntToString(v[0]);
    assert f[1] == "rel=" + IntToString(v[1]);
    assert f[2] == "controls=" + IntToString(v[2]);
    assert f[3] == "showinfo=" + IntToString(v[3]);
    assert f[4] == "start=" + IntToString(v[4]);
  }

  /** The concatenation in `EmbedUrl`, regrouped as a join of the fields. */
  lemma QueryShape(h: string, a: string, r: string, c: string, s: string, t: string)
    ensures h + "?autoplay=" + a + "&rel=" + r + "&controls=" + c + "&showinfo=" + s + "&start=" + t
      == h + "?" + Join(["autoplay=" + a, "rel=" + r, "controls=" + c, "showinfo=" + s, "start=" + t], '&')
  {
    var f := ["autoplay=" + a, "rel=" + r, "controls=" + c, "showinfo=" + s, "start=" + t];
    var k1 := f[0];
    var k2 := k1 + "&" + f[1];
    var k3 := k2 + "&" + f[2];
    var k4 := k3 + "&" + f[3];
    var k5 := k4 + "&" + f[4];
    assert h + "?autoplay=" + a == h + "?" + k1;
    assert h + "?" + k1 + "&rel=" + r == h + "?" + k2;
    assert h + "?" + k2 + "&controls=" + c == h + "?" + k3;
    assert h + "?" + k3 + "&showinfo=" + s == h + "?" + k4;
    assert h + "?" + k4 + "&start=" + t == h + "?" + k5;
    JoinFive(f, '&');
  }

  lemma JoinFive(f: seq<string>, sep: char)
    requires |f| == 5
    ensures Join(f, sep) == (((f[0] + [sep] + f[1]) + [sep] + f[2]) + [sep] + f[3]) + [sep] + f[4]
  {
    assert Join(f[4..], sep) == f[4];
    assert Join(f[3..], sep) == f[3] + [sep] + f[4] by { assert f[3..][1..] == f[4..]; }
    assert Join(f[2..], sep) == f[2] + [sep] + (f[3] + [sep] + f[4]) by { assert f[2..][1..] == f[3..]; }
    assert Join(f[1..], sep) == f[1] + [sep] + (f[2] + [sep] + (f[3] + [sep] + f[4])) by { assert f[1..][1..] == f[2..]; }
  }

  lemma NamesFree()
    ensures forall k :: 0 <= k < |PARAMETER_NAMES| ==> Free(PARAMETER_NAMES[k], '&') && Free(PARAMETER_NAMES[k], '=')
  {
    forall k | 0 <= k < |PARAMETER_NAMES|
      ensures Free(PARAMETER_NAMES[k], '&') && Free(PARAMETER_NAMES[k], '=')
    {
      if k == 0 {} else if k == 1 {} else if k == 2 {} else if k == 3 {} else {}
    }
  }

  lemma FieldRoundTrip(name: string, n: int)
    requires Free(name, '=')
    ensures Field(Param(name, n), name) == Some(n)
  {
    var f := Param(name, n);
    var head := name + "=";
    assert f[..|head|] == head;
    assert f[|head|..] == IntToString(n);
    IntRoundTrip(n);
  }

  /** A parameter holds a separator only if its name does. */
  lemma ParamFree(name: string, n: int, c: char)
    requires Free(name, c) && c != '=' && c != '-' && !IsDigit(c)
    ensures Free(Param(name, n), c)
  {
    IntRoundTrip(n);
    var f := Param(name, n);
    forall j | 0 <= j < |f|
      ensures f[j] != c
    {
      if j > |name| {
        assert f[j] == IntToString(n)[j - |name| - 1];
      }
    }
  }

  /** Joining the parameters with `&` and splitting again gives them back. */
  lemma ParamsSplit(v: seq<int>)
    requires |v| == |PARAMETER_NAMES|
    ensures Split(Join(Params(v), '&'), '&') == Params(v)
  {
    var f := Params(v);
    NamesFree();
    forall k | 0 <= k < 5
      ensures Free(f[k], '&')
    {
      ParamFree(PARAMETER_NAMES[k], v[k], '&');
    }
    SplitJoin(f, '&');
  }

  /** Each parameter reads back as its value, in order. */
  lemma ParamsRead(v: seq<int>)
    requires |v| == |PARAMETER_NAMES|
    ensures ReadFields(Params(v)) == Some(v)
  {
    var f := Params(v);
    NamesFree();
    forall k | 0 <= k < 5
      ensures Field(f[k], PARAMETER_NAMES[k]) == Some(v[k])
    {
      FieldRoundTrip(PARAMETER_NAMES[k], v[k]);
    }
    var w := ReadFields(f).value;
    assert forall k :: 0 <= k < 5 ==> w[k] == v[k];
    assert w == v;
  }

  /** A URL of the embed shape reads back as its id and values whenever
      the id holds no `?`. */
  lemma ParseEmbedShape(id: string, v: seq<int>)
    requires Free(id, '?') && |v| == |PARAMETER_NAMES|
    ensures ParseEmbedUrl(EMBED_PREFIX + id + "?" + Join(Params(v), '&')) == Some(Embed(id, v[0], v[1], v[2], v[3], v[4]))
  {
    var query := Join(Params(v), '&');
    ParamsSplit(v);
    ParamsRead(v);
    ParseEmbedParts(id, query);
  }

  /** The prefix, then an id without `?`, then `?` and a query: the id is
      read back and the query's fields are read. */
  lemma ParseEmbedParts(id: string, query: string)
    requires Free(id, '?')
    ensures ParseEmbedUrl(EMBED_PREFIX + id + "?" + query)
      == match ReadFields(Split(query, '&'))
         case None => None
         case Some(v) => Some(Embed(id, v[0], v[1], v[2], v[3], v[4]))
  {
    var rest := id + "?" + query;
    var u := EMBED_PREFIX + id + "?" + query;
    assert u == EMBED_PREFIX + rest;
    PrefixStrip(rest);
    IdStrip(id, query);
    assert !(|u| < |EMBED_PREFIX| || u[..|EMBED_PREFIX|] != EMBED_PREFIX);
    assert u[|EMBED_PREFIX|..] == rest;
  }

  lemma PrefixStrip(rest: string)
    ensures var u := EMBED_PREFIX + rest;
      |u| >= |EMBED_PREFIX| && u[..|EMBED_PREFIX|] == EMBED_PREFIX && u[|EMBED_PREFIX|..] == rest
  {
  }

  lemma IdStrip(id: string, query: string)
    requires Free(id, '?')
    ensures var rest := id + "?" + query;
      IndexOf(rest, '?') == Some(|id|) && rest[..|id|] == id && rest[|id| + 1..] == query
  {
    IndexOfAfterFree(id, '?', query);
    var rest := id + "?" + query;
    assert rest[..|id|] == id;
    assert rest[|id| + 1..] == query;
  }

  /** The embed URL can be read back into the configuration's id and
      parameters, in order, whenever the id holds no `?`. */
  lemma EmbedUrlRoundTrip(c: YoutubeConfig)
    requires Free(c.videoId, '?')
    ensures ParseEmbedUrl(EmbedUrl(c)) == Some(Embed(c.videoId, c.autoplay, c.rel, c.controls, c.showinfo, c.start))
  {
    EmbedUrlShape(c);
    ParseEmbedShape(c.videoId, ParameterValues(c));
  }

  /** A detected id never holds `?`, so the URL of a recognised link always
      reads back. */
  lemma DetectedIdReadsBack(o: YoutubeOptions)
    ensures o.src.Str? && YoutubeId.ExtractId(o.src.s).Some? ==>
      var c := NewYoutube(o).value;
      ParseEmbedUrl(EmbedUrl(c)) == Some(Embed(c.videoId, c.autoplay, c.rel, c.controls, c.showinfo, c.start))
  {
    if o.src.Str? && YoutubeId.ExtractId(o.src.s).Some? {
      var c := NewYoutube(o).value;
      assert Free(c.videoId, '?');
      EmbedUrlRoundTrip(c);
    }
  }

  /** The iframe element `load` returns. */
  datatype Iframe = Iframe(
    width: Option<int>,
    height: Option<int>,
    frameBorder: int,
    src: string,
    allow: string,
    allowFullscreen: bool)

  /** `load` of the iframe-building classes. */
  function LoadIframe(c: YoutubeConfig): (f: Iframe)
    ensures f.width.Some? <==> c.width > 0
    ensures f.height.Some? <==> c.height > 0
    ensures f.src == EmbedUrl(c) && f.allowFullscreen == c.allowFullscreen
  {
    Iframe(Dimension(c.width), Dimension(c.height), 0, EmbedUrl(c), "autoplay; encrypted-media", c.allowFullscreen)
  }

  /** The values handed to the embedded player when `load` creates it. */
  datatype PlayerSetup = PlayerSetup(
    videoId: string,
    width: int,
    height: int,
    autoplay: int,
    controls: int,
    showinfo: int,
    rel: int,
    start: int)

  /** The embedded-player item: the constructor's fields and the player,
      `null` until `load` creates it. */
  datatype PlayerItem = PlayerItem(config: YoutubeConfig, player: Option<PlayerSetup>)

  /** What a guard asks of the player. */
  datatype PlayerCall = PauseVideo

  /** The embedded-player constructor: the shared constructor, with no
      player yet. */
  function NewPlayerItem(o: YoutubeOptions): Result<PlayerItem, ConstructorError>
  {
    match NewYoutube(o)
    case Ok(c) => Ok(PlayerItem(c, None))
    case Err(e) => Err(e)
  }

  /** The synchronous part of `load`: the player is created with the
      constructor's values. Its readiness is left to the player library. */
  function StartPlayer(p: PlayerItem): (q: PlayerItem)
    ensures q.config == p.config && q.player.Some?
  {
    var c := p.config;
    p.(player := Some(PlayerSetup(c.videoId, c.width, c.height, c.autoplay, c.controls, c.showinfo, c.rel, c.start)))
  }

  /** `beforeClose`: pause the video if there is a player. */
  function BeforeClose(p: PlayerItem): seq<PlayerCall>
  {
    if p.player.Some? then [PauseVideo] else []
  }

  /** `beforeChange`: pause the video if there is a player. */
  function BeforeChange(p: PlayerItem): seq<PlayerCall>
  {
    if p.player.Some? then [PauseVideo] else []
  }

  /** A freshly constructed item has no player, so both guards do nothing;
      once `load` has created the player each guard pauses it exactly once,
      and the player receives the constructor's id, sizes, flags and start.
      Construction throws, as for every YouTube item, when the source is not
      a string. */
  lemma PlayerGuards(o: YoutubeOptions)
    ensures NewPlayerItem(o).Ok? <==> o.src.Str?
    ensures NewPlayerItem(o).Ok? ==>
      var p := NewPlayerItem(o).value; var c := NewYoutube(o).value;
      && p.player == None && p.config == c
      && BeforeClose(p) == [] && BeforeChange(p) == []
      && BeforeClose(StartPlayer(p)) == [PauseVideo]
      && BeforeChange(StartPlayer(p)) == [PauseVideo]
      && StartPlayer(p).player == Some(PlayerSetup(VideoId(o.src.s), c.width, c.height,
           c.autoplay, c.controls, c.showinfo, c.rel, c.start))
  {
  }
}

=== FILE: youtube_id.dfy ===
/**
 * The video-id detection shared by the three YouTube item classes:
 *
 *   (?:youtube(?:-nocookie)?\.com\/(?:[^/\n\s]+\/\S+\/|(?:v|e(?:mbed)?)\/|\S*?[?&]v=)|youtu\.be\/)([a-zA-Z0-9_-]{11})
 *
 * applied with `String.prototype.match` (no global flag), so the first match
 * is taken: the leftmost start position, and at that position the first
 * alternative that succeeds in the backtracking order of ECMAScript regular
 * expressions. `Search` follows that order step by step; `MatchesAt` says
 * declaratively what a match is, and the lemmas at the end tie the two
 * together.
 */
module YoutubeId {
  import opened Wrappers

  /** The length of the capture group. */
  const ID_LENGTH := 11

  /** `[a-zA-Z0-9_-]`. */
  predicate IsIdChar(c: char) {
    ('a' <= c <= 'z') || ('A' <= c <= 'Z') || ('0' <= c <= '9') || c == '_' || c == '-'
  }

  /** `\s`: the WhiteSpace and LineTerminator code points of ECMAScript. */
  predicate IsSpace(c: char) {
    || c == '\t' || c == '\n' || c == '\U{B}' || c == '\U{C}' || c == '\r' || c == ' '
    || c == '\U{A0}' || c == '\U{1680}' || ('\U{2000}' <= c <= '\U{200A}')
    || c == '\U{2028}' || c == '\U{2029}' || c == '\U{202F}' || c == '\U{205F}'
    || c == '\U{3000}' || c == '\U{FEFF}'
  }

  /** The literal `lit` occurs in `s` at position `p`. */
  predicate HasAt(s: string, p: nat, lit: string) {
    p + |lit| <= |s| && s[p..p + |lit|] == lit
  }

  /** The capture group `([a-zA-Z0-9_-]{11})` fits at position `q`. */
  predicate IdFits(s: string, q: nat) {
    q + ID_LENGTH <= |s| && forall j :: q <= j < q + ID_LENGTH ==> IsIdChar(s[j])
  }

  /** `s[lo..hi]` is matched by `[^/\n\s]*`. */
  predicate SegmentChars(s: string, lo: nat, hi: nat)
    requires lo <= hi <= |s|
  {
    forall j :: lo <= j < hi ==> s[j] != '/' && !IsSpace(s[j])
  }

  /** `s[lo..hi]` is matched by `\S*`. */
  predicate NoSpace(s: string, lo: nat, hi: nat)
    requires lo <= hi <= |s|
  {
    forall j :: lo <= j < hi ==> !IsSpace(s[j])
  }

  // ---------------------------------------------------------------------
  // Declarative reading of the expression
  // ---------------------------------------------------------------------

  /** First path alternative `[^/\n\s]+\/\S+\/`: a segment `r .. a`, a
      slash at `a`, a non-empty run without spaces, and a slash just before
      the capture at `q`. */
  ghost predicate PathSplit(s: string, r: nat, a: nat, q: nat) {
    && r < a && a + 3 <= q <= |s|
    && SegmentChars(s, r, a) && s[a] == '/'
    && NoSpace(s, a + 1, q - 1) && s[q - 1] == '/'
  }

  ghost predicate PathTail(s: string, r: nat, q: nat) {
    exists a :: PathSplit(s, r, a, q)
  }

  /** Second alternative `(?:v|e(?:mbed)?)\/`. */
  ghost predicate VTail(s: string, r: nat, q: nat) {
    || (q == r + 2 && (HasAt(s, r, "v/") || HasAt(s, r, "e/")))
    || (q == r + 6 && HasAt(s, r, "embed/"))
  }

  /** Third alternative `\S*?[?&]v=`. */
  ghost predicate QueryTail(s: string, r: nat, q: nat) {
    && r + 3 <= q <= |s|
    && NoSpace(s, r, q - 3)
    && (s[q - 3] == '?' || s[q - 3] == '&')
    && HasAt(s, q - 2, "v=")
  }

  /** What may follow `youtube(?:-nocookie)?.com/` before the capture. */
  ghost predicate HostTail(s: string, r: nat, q: nat) {
    PathTail(s, r, q) || VTail(s, r, q) || QueryTail(s, r, q)
  }

  /** The expression matches with the whole match starting at `p` and the
      eleven-character capture group starting at `q`. */
  ghost predicate MatchesAt(s: string, p: nat, q: nat) {
    && IdFits(s, q)
    && (|| (HasAt(s, p, "youtu.be/") && q == p + 9)
        || (HasAt(s, p, "youtube.com/") && HostTail(s, p + 12, q))
        || (HasAt(s, p, "youtube-nocookie.com/") && HostTail(s, p + 21, q)))
  }

  // ---------------------------------------------------------------------
  // The matcher, in the expression's backtracking order
  // ---------------------------------------------------------------------

  /** Where the capture starts, and where the whole match starts. */
  datatype Capture = Capture(start: nat, id: nat)

  /** The greedy `[^/\n\s]*` starting at `i`: the end of the run. */
  function SegmentEnd(s: string, i: nat): (a: nat)
    requires i <= |s|
    ensures i <= a <= |s| && SegmentChars(s, i, a)
    ensures a == |s| || s[a] == '/' || IsSpace(s[a])
    decreases |s| - i
  {
    if i < |s| && s[i] != '/' && !IsSpace(s[i]) then SegmentEnd(s, i + 1) else i
  }

  /** The greedy `\S*` starting at `i`: the end of the run. */
  function SpanEnd(s: string, i: nat): (b: nat)
    requires i <= |s|
    ensures i <= b <= |s| && NoSpace(s, i, b)
    ensures b == |s| || IsSpace(s[b])
    decreases |s| - i
  {
    if i < |s| && !IsSpace(s[i]) then SpanEnd(s, i + 1) else i
  }

  /** Backtracking the greedy `\S+` before `\/([a-zA-Z0-9_-]{11})`: the
      slash positions `e` are tried from `hi` down to `lo`, and the first one
      followed by an id wins. The result is the capture position `e + 1`. */
  function BackSearch(s: string, lo: nat, hi: int): (r: Option<nat>)
    requires hi < |s|
    ensures r.Some? ==> lo < r.value <= hi + 1 && s[r.value - 1] == '/' && IdFits(s, r.value)
    decreases hi + 1 - lo
  {
    if hi < lo then None
    else if s[hi] == '/' && IdFits(s, hi + 1) then Some(hi + 1)
    else BackSearch(s, lo, hi - 1)
  }

  /** `[^/\n\s]+\/\S+\/` then the capture, after the host at `r`. */
  function PathAlt(s: string, r: nat): (res: Option<nat>)
    requires r <= |s|
    ensures res.Some? ==> PathTail(s, r, res.value) && IdFits(s, res.value)
  {
    var a := SegmentEnd(s, r);
    if a == r || a == |s| || s[a] != '/' then None
    else
      var b := SpanEnd(s, a + 1);
      match BackSearch(s, a + 2, b - 1)
      case None => None
      case Some(q) =>
        assert PathSplit(s, r, a, q);
        Some(q)
  }

  /** `(?:v|e(?:mbed)?)\/` then the capture. `embed` is tried before `e`. */
  function VAlt(s: string, r: nat): (res: Option<nat>)
    ensures res.Some? ==> VTail(s, r, res.value) && IdFits(s, res.value)
  {
    if HasAt(s, r, "v/") then (if IdFits(s, r + 2) then Some(r + 2) else None)
    else if HasAt(s, r, "embed/") then (if IdFits(s, r + 6) then Some(r + 6) else None)
    else if HasAt(s, r, "e/") then (if IdFits(s, r + 2) then Some(r + 2) else None)
    else None
  }

  /** The lazy `\S*?[?&]v=` then the capture: the candidate `[?&]` positions
      are tried from `i` rightwards, as long as no space has been crossed. */
  function FwdSearch(s: string, i: nat): (res: Option<nat>)
    ensures res.Some? ==> i + 3 <= res.value <= |s| && NoSpace(s, i, res.value - 3)
    ensures res.Some? ==> (s[res.value - 3] == '?' || s[res.value - 3] == '&')
    ensures res.Some? ==> HasAt(s, res.value - 2, "v=") && IdFits(s, res.value)
    decreases |s| - i
  {
    if i >= |s| then None
    else if (s[i] == '?' || s[i] == '&') && HasAt(s, i + 1, "v=") && IdFits(s, i + 3) then Some(i + 3)
    else if IsSpace(s[i]) then None
    else FwdSearch(s, i + 1)
  }

  /** The three alternatives after the host, in order. */
  function AfterHost(s: string, r: nat): (res: Option<nat>)
    requires r <= |s|
    ensures res.Some? ==> HostTail(s, r, res.value) && IdFits(s, res.value)
  {
    match PathAlt(s, r)
    case Some(q) => Some(q)
    case None =>
      match VAlt(s, r)
      case Some(q) => Some(q)
      case None => FwdSearch(s, r)
  }

  /** The whole expression tried at start position `p`. */
  function TryAt(s: string, p: nat): (res: Option<nat>)
    ensures res.Some? ==> MatchesAt(s, p, res.value)
  {
    if HasAt(s, p, "youtube-nocookie.com/") then AfterHost(s, p + 21)
    else if HasAt(s, p, "youtube.com/") then AfterHost(s, p + 12)
    else if HasAt(s, p, "youtu.be/") then (if IdFits(s, p + 9) then Some(p + 9) else None)
    else None
  }

  /** The start positions tried from `p` rightwards; the first success wins. */
  function Search(s: string, p: nat): (res: Option<Capture>)
    ensures res.Some? ==> p <= res.value.start && MatchesAt(s, res.value.start, res.value.id)
    decreases |s| - p
  {
    if p >= |s| then None
    else
      match TryAt(s, p)
      case Some(q) => Some(Capture(p, q))
      case None => Search(s, p + 1)
  }

  /** `src.match(regex)`: the captured id, if any. */
  function ExtractId(src: string): (r: Option<string>)
    ensures r.Some? ==> |r.value| == ID_LENGTH && forall j :: 0 <= j < |r.value| ==> IsIdChar(r.value[j])
    ensures r.Some? ==> exists p: nat, q: nat ::
      && MatchesAt(src, p, q) && r.value == src[q..q + ID_LENGTH]
      && forall p': nat, q': nat :: MatchesAt(src, p', q') ==> p <= p'
  {
    match Search(src, 0)
    case None => None
    case Some(c) =>
      FirstCaptureIsLeftmost(src);
      assert MatchesAt(src, c.start, c.id);
      var id := src[c.id..c.id + ID_LENGTH];
      assert forall j :: 0 <= j < |id| ==> id[j] == src[c.id + j];
      Some(id)
  }

  // ---------------------------------------------------------------------
  // Completeness: whenever the expression can match, the matcher finds it
  // ---------------------------------------------------------------------

  /** A segment that stops at a slash is exactly the greedy segment. */
  lemma {:induction false} SegmentEndAtSlash(s: string, i: nat, a: nat)
    requires i <= a < |s| && SegmentChars(s, i, a) && s[a] == '/'
    ensures SegmentEnd(s, i) == a
    decreases a - i
  {
    if i < a {
      SegmentEndAtSlash(s, i + 1, a);
    }
  }

  /** A non-space character reached without crossing a space lies inside
      the greedy `\S*` run. */
  lemma {:induction false} SpanEndBeyond(s: string, i: nat, e: nat)
    requires i <= e < |s| && NoSpace(s, i, e) && !IsSpace(s[e])
    ensures e < SpanEnd(s, i)
    decreases e - i
  {
    if i < e {
      SpanEndBeyond(s, i + 1, e);
    }
  }

  /** The backward search finds a slash-then-id whenever one lies in range. */
  lemma {:induction false} BackSearchFinds(s: string, lo: nat, hi: int, e: nat)
    requires lo <= e <= hi < |s| && s[e] == '/' && IdFits(s, e + 1)
    ensures BackSearch(s, lo, hi).Some?
    decreases hi - e
  {
    if !(s[hi] == '/' && IdFits(s, hi + 1)) {
      BackSearchFinds(s, lo, hi - 1, e);
    }
  }

  /** The forward search finds a `[?&]v=` followed by an id whenever one is
      reachable without crossing a space. */
  lemma {:induction false} FwdSearchFinds(s: string, i: nat, j: nat)
    requires i <= j < |s| && NoSpace(s, i, j)
    requires (s[j] == '?' || s[j] == '&') && HasAt(s, j + 1, "v=") && IdFits(s, j + 3)
    ensures FwdSearch(s, i).Some?
    decreases j - i
  {
    if i < j && !((s[i] == '?' || s[i] == '&') && HasAt(s, i + 1, "v=") && IdFits(s, i + 3)) {
      FwdSearchFinds(s, i + 1, j);
    }
  }

  lemma PathAltComplete(s: string, r: nat, a: nat, q: nat)
    requires r <= |s| && PathSplit(s, r, a, q) && IdFits(s, q)
    ensures PathAlt(s, r).Some?
  {
    SegmentEndAtSlash(s, r, a);
    SpanEndBeyond(s, a + 1, q - 1);
    BackSearchFinds(s, a + 2, SpanEnd(s, a + 1) - 1, q - 1);
  }

  lemma VAltComplete(s: string, r: nat, q: nat)
    requires VTail(s, r, q) && IdFits(s, q)
    ensures VAlt(s, r).Some?
  {
    if HasAt(s, r, "e/") {
      CharOfLiteral(s, r, "e/", 1);
      if HasAt(s, r, "embed/") {
        CharOfLiteral(s, r, "embed/", 1);
      }
      assert !HasAt(s, r, "embed/");
    }
    if HasAt(s, r, "embed/") {
      CharOfLiteral(s, r, "embed/", 0);
      if HasAt(s, r, "v/") {
        CharOfLiteral(s, r, "v/", 0);
      }
      assert !HasAt(s, r, "v/");
    }
  }

  lemma AfterHostComplete(s: string, r: nat, q: nat)
    requires r <= |s| && HostTail(s, r, q) && IdFits(s, q)
    ensures AfterHost(s, r).Some?
  {
    if PathTail(s, r, q) {
      var a :| PathSplit(s, r, a, q);
      PathAltComplete(s, r, a, q);
    } else if VTail(s, r, q) {
      VAltComplete(s, r, q);
    } else {
      FwdSearchFinds(s, r, q - 3);
    }
  }

  /** A literal that occurs at `p` fixes the character at each offset. */
  lemma CharOfLiteral(s: string, p: nat, lit: string, k: nat)
    requires HasAt(s, p, lit) && k < |lit|
    ensures s[p + k] == lit[k]
  {
    assert s[p..p + |lit|][k] == s[p + k];
  }

  lemma TryAtComplete(s: string, p: nat, q: nat)
    requires MatchesAt(s, p, q)
    ensures TryAt(s, p).Some?
  {
    if HasAt(s, p, "youtube-nocookie.com/") {
      if HasAt(s, p, "youtube.com/") {
        CharOfLiteral(s, p, "youtube-nocookie.com/", 7);
        CharOfLiteral(s, p, "youtube.com/", 7);
      }
      if HasAt(s, p, "youtu.be/") {
        CharOfLiteral(s, p, "youtube-nocookie.com/", 5);
        CharOfLiteral(s, p, "youtu.be/", 5);
      }
      AfterHostComplete(s, p + 21, q);
    } else if HasAt(s, p, "youtube.com/") {
      if HasAt(s, p, "youtu.be/") {
        CharOfLiteral(s, p, "youtube.com/", 5);
        CharOfLiteral(s, p, "youtu.be/", 5);
      }
      AfterHostComplete(s, p + 12, q);
    }
  }

  /** The search from `p` finds a match no later than any match at or after `p`. */
  lemma {:induction false} SearchComplete(s: string, p: nat, p': nat, q: nat)
    requires p <= p' && MatchesAt(s, p', q)
    ensures Search(s, p).Some? && Search(s, p).value.start <= p'
    decreases p' - p
  {
    MatchStartsInside(s, p', q);
    if TryAt(s, p).None? {
      if p == p' {
        TryAtComplete(s, p', q);
      } else {
        SearchComplete(s, p + 1, p', q);
      }
    }
  }

  /** A match starts strictly inside the text. */
  lemma MatchStartsInside(s: string, p: nat, q: nat)
    requires MatchesAt(s, p, q)
    ensures p < |s|
  {
  }

  /** The first match of the expression: sound, and leftmost among all
      positions where the expression can match. */
  lemma FirstCaptureIsLeftmost(s: string)
    ensures Search(s, 0).Some? ==> MatchesAt(s, Search(s, 0).value.start, Search(s, 0).value.id)
    ensures forall p: nat, q: nat :: MatchesAt(s, p, q) ==> Search(s, 0).Some? && Search(s, 0).value.start <= p
  {
    forall p: nat, q: nat | MatchesAt(s, p, q)
      ensures Search(s, 0).Some? && Search(s, 0).value.start <= p
    {
      SearchComplete(s, 0, p, q);
    }
  }

  /** No id is extracted exactly when the expression matches nowhere. */
  lemma ExtractIdNoneIffNoMatch(src: string)
    ensures ExtractId(src).None? <==> forall p: nat, q: nat :: !MatchesAt(src, p, q)
  {
    FirstCaptureIsLeftmost(src);
  }
}
